=== FILE: README.md ===
# Screenshot crawler: capture decisions and admission gate

This project models the decision logic of a screenshot worker.

The worker receives requests to photograph an advertisement. Each request names a website URL, a placement id (`pid`) and a creative-group id (`crgId`). For each request, `captureScreen` does the following, in order:

1. Skips the request when a fresh screenshot already exists.
2. Looks up the creative group and the placement, and derives the placement kind: native, multi-pane native, or iframe.
3. Adds `http://` to the URL when it has no protocol.
4. Finds the advertisement's bounding rectangle on the page.
5. Positions a fixed `clipWidth × clipHeight` window so that it holds the rectangle.
6. Waits until the native images have loaded.
7. Takes the screenshot, uploads it and saves its metadata.

Every exception along the way is caught by `captureScreen` and becomes exactly one log line: a warning, an error line naming the request, or the raw exception. The upload and the metadata save are different: their wrappers log a failure themselves and resolve. So a failed upload or save does not stop the capture; the metadata then carries no image URL, or is not stored.

In front of the crawler sits a single-slot gate. It consists of a `crawling` flag and a Redis list:
- A request that arrives while a capture runs is written as `websiteUrl:…,pid:…,crgId:…` and pushed on the list's head.
- A one-second timer pops the list's tail whenever the worker is idle.
- The popped message is parsed back into a request.

The model is functional: immutable datatypes and total functions. Browser, database, storage and clock results are inputs. The `Environment` datatype carries them into `Crawler.RunCapture`. The gate is a state `(crawling, queue)` with one atomic `Step` per event-loop handler.

Modules:
- `Wrappers`, `JsStrings`: the JavaScript string semantics the code relies on. These are `substring` clamping and `split`.
- `Request`, `Faults`: the request and the failure/log vocabulary.
- The capture pipeline: `Urls`, `Freshness`, `Placements`, `Page`, `ClipWindow`, `Readiness`, `Crawler`.
- The message codec and the gate: `RedisMessage`, `AdmissionGate`.

## Model

| member | source | states |
|---|---|---|
| JsStrings.SubstringTo | lib/crawler.js:20-21 | `s.substring(0, n)` is a prefix of `s` whose length is `n` or, when `s` is shorter, the whole of `s` |
| JsStrings.SubstringFrom | index.js:57-59 | `s.substring(n)` is the rest of `s` after its first `n` characters, or empty when `n` is past the end |
| JsStrings.SubstringToIsPrefixTest | lib/crawler.js:20-21 | comparing `s.substring(0, p.length)` with `p` is exactly the test "p is a prefix of s", short strings included |
| JsStrings.SubstringFromAfterTag | index.js:57-59 | dropping as many characters as `tag` holds from `tag + rest` leaves `rest`, whatever the tag's characters |
| JsStrings.Split | index.js:55 | `split(',')` yields one more piece than there are commas, and no piece holds a comma |
| JsStrings.JoinSplit | index.js:55 | joining the pieces of a split with the separator gives back the string |
| JsStrings.SplitJoin | index.js:55 | splitting separator-free pieces joined by the separator gives back the pieces |
| JsStrings.SplitAtFirst | index.js:55 | splitting at the first separator peels off the leading piece |
| Urls.ProtocolPrefixExists | lib/crawler.js:19-26 | true iff the URL starts with `http://` or `https://` |
| Urls.Normalize | lib/crawler.js:112-114 | the result has a protocol prefix; it is the URL unchanged when the URL had one, else `http://` + URL; the URL is always its suffix |
| Urls.NormalizeIdempotent | lib/crawler.js:112-114 | normalising twice equals normalising once |
| Urls.NormalizeFixpoints | lib/crawler.js:112-114 | a URL is left unchanged iff it already has a protocol prefix |
| Freshness.IsRecentDuplicate | lib/crawler.js:50-62 | skip iff there is a first record and its timestamp is later than now minus the expiration window; an empty result never skips |
| Freshness.OnlyFirstRecordExamined | lib/crawler.js:50-51 | records after the first never change the decision |
| Freshness.RecencyOnlyExpires | lib/crawler.js:51-54 | a record fresh at a later time was fresh at every earlier time; an expired one stays expired |
| Placements.PlacementKind | lib/crawler.js:83-88 | `native` gives Native; `multiPaneNative` gives MultiPaneNative with `count.desktop` when the settings and count objects exist, else a TypeError; any other type gives the iframe kind |
| Placements.ExpectedCount | lib/crawler.js:85-88 | a multi-pane placement passes its own `count.desktop` to the wait; every other kind passes none |
| Placements.Resolve | lib/crawler.js:68-88 | a missing creative group is reported before a missing placement, both as tagged errors; success iff both exist and the kind can be read |
| Faults.ErrorText | lib/crawler.js:265 | the error line starts with the prefix and the request's URL and ends with the message and a full stop |
| Faults.Classify | lib/crawler.js:260-270 | a `warn` tag is a warning with the message; another truthy tag is an error line naming the URL and ending with the message; an untagged value or an empty tag is logged raw |
| Page.FirstPresent | lib/crawler.js:139-149 | none iff no candidate is present; otherwise the first present candidate |
| Page.Widget | lib/crawler.js:138-150 | the widget found by id wins, then the one found by class, then the one found by data attribute; none iff all three are missing |
| Page.WidgetIsFirstPresent | lib/crawler.js:138-150 | the widget is the first present of `div#cliques-widget`, `div.cliques-widget`, `div[data-cliques-multi-pane-native]`, and none iff all three are missing |
| Page.LocateRect | lib/crawler.js:124-164 | native: the first native image's rect, none iff there is no image; multi-pane: the widget fallback; iframe as written: a ReferenceError in the page; iframe with the selector repaired: the first matching iframe |
| Page.CorrectedFrameIsFirstMatch | lib/crawler.js:151-157 | the repaired iframe lookup returns the first iframe whose `src` holds both `crgid='…'` and `pid='…'`, and nothing iff no iframe does |
| Page.NotFoundMessage | lib/crawler.js:165-186 | every not-found text ends with the placement id and a full stop |
| Page.NotFoundNamesCreativeGroup | lib/crawler.js:167-184 | the native and iframe not-found texts also name the creative group |
| Page.NotFoundMessagesDiffer | lib/crawler.js:165-186 | the not-found texts of different kinds never coincide, whatever the ids |
| ClipWindow.AxisOffset | lib/crawler.js:188-196 | the offset is non-negative; it is zero iff the far edge fits; when positive the window's far edge meets the element's; the far edge is always covered |
| ClipWindow.ClipOffset | lib/crawler.js:188-196 | both offsets are non-negative; a non-zero top or left offset aligns the window's bottom or right edge with the element's |
| ClipWindow.AxisOffsetIsLeast | lib/crawler.js:191-196 | no smaller non-negative offset brings the element's far edge into the window |
| ClipWindow.AxisContainment | lib/crawler.js:188-196 | for an element at or after the origin, the window holds it iff it is no longer than the window |
| ClipWindow.ClipContainsElement | lib/crawler.js:188-196 | an element in the positive quadrant that fits the window lies inside the window on both axes |
| ClipWindow.BottomRightExample | lib/crawler.js:191-196 | a 300 × 300 element at (700, 900) in a 1024 × 768 window gives offsets (232, 176) |
| Readiness.CollectImages | lib/crawler.js:202-208 | every native image is collected iff the expected count is above 1; otherwise only the first match, which is `null` when there is none |
| Readiness.ScanImages | lib/crawler.js:212-220 | true iff every collected entry is a complete image with non-zero natural width; it throws iff a `null` comes before any not-loaded image |
| Readiness.Evaluate | lib/crawler.js:201-221 | one evaluation is true only when some image exists, and throws only when the single-match query is used |
| Readiness.EvaluateTruthTable | lib/crawler.js:201-221 | the predicate holds iff there is an image and all images (count above 1) or the first one are loaded; it throws iff only the first match is wanted and none exists |
| Readiness.CountValueIgnored | lib/crawler.js:203-220 | any two expected counts above 1 give the same verdict on every page: the count only chooses the query and is never compared with the number of images |
| Readiness.WaitForImages | lib/crawler.js:201-221 | a failed wait is the predicate's TypeError or the timeout, and the TypeError exactly when the first evaluation inside the budget throws |
| Readiness.KeepPolling | lib/crawler.js:201-221 | after the first evaluation, the wait ends only in success or the timeout: a later throw stops the polling |
| Readiness.KeepPollingOutcome | lib/crawler.js:201-221 | the later polling succeeds iff some evaluation inside the budget is true and every earlier one was false |
| Readiness.WaitOutcome | lib/crawler.js:201-221 | the wait succeeds iff some evaluation inside the 60 s budget is true and every earlier one was false |
| Readiness.WaitThrowsWithoutNativeImage | lib/crawler.js:205-213 | with no native image and a count not above 1, the first evaluation throws and the wait fails |
| Crawler.RecentMessage | lib/crawler.js:58 | the duplicate warning starts by naming the request's URL |
| Crawler.Target | lib/crawler.js:112-114 | after normalisation the URL has a protocol prefix and the ids are unchanged |
| Crawler.MetadataFor | lib/crawler.js:243-257 | the saved record has the given time stamp and image URL, the clip size, the normalised URL, both ids, the parents' ids, and a campaign id and name exactly when the creative group has a campaign |
| Crawler.RunCapture | lib/crawler.js:35-271 | a rejected lookup is logged raw; a warning iff the first stored screenshot is fresh; the missing-record errors, creative group first; an unreadable placement kind, a rejected navigation, a throwing in-page lookup, a failed image wait and a rejected screenshot are each logged raw with their own cause; a capture needs the checks, the navigation, the located element, the image wait and the screenshot; the saved record is the one built from the normalised request, both parent records, the upload's URL (if any) and the clock read after the upload, and the model reports whether the save stored it; the screenshot is clipped at exactly the offsets computed for the found element, so the window is the configured size at non-negative offsets and holds the element when it fits; later errors name the normalised URL |
| Crawler.CapturedIffStepsSucceed | lib/crawler.js:112-230 | for every placement kind that passes the checks: captured iff navigation, lookup, image wait (when it runs) and screenshot all succeed, and the captured element is the one found |
| Crawler.NotFoundIsReported | lib/crawler.js:165-186 | for every placement kind, an element that is not on the page gives that kind's not-found error line, naming the normalised URL |
| Crawler.CaptureScreen | lib/crawler.js:151-157 | as written, no iframe placement is ever captured; past the checks and navigation it is logged as a raw ReferenceError |
| Crawler.CaptureScreenCorrected | lib/crawler.js:151-157 | repaired, an iframe placement is never a ReferenceError; with the browser calls succeeding it is captured iff a matching iframe exists, and the element is that iframe |
| Crawler.RepairedSelectorStillThrowsInWait | lib/crawler.js:201-213 | with only the selector repaired, an iframe placement whose iframe is found on a page without native images is still logged as a raw TypeError from the image wait |
| Crawler.CorrectedIframeIgnoresImages | lib/crawler.js:201-221 | repaired, an iframe capture does not depend on the page's native images |
| Crawler.NativeCapturedIffImageLoads | lib/crawler.js:201-230 | with the browser calls succeeding, a native placement whose image is present is captured iff the wait for the first native image succeeds |
| RedisMessage.Format | index.js:107 | the stored string starts with the URL tag and the URL |
| RedisMessage.Parse | index.js:54-61 | the parse fails (a TypeError on `arr[1]` or `arr[2]`) iff the string holds fewer than two commas |
| RedisMessage.ParseJoined | index.js:54-61 | joined comma-free fields are read back with 11, 4 and 6 characters dropped from the first three; further fields are ignored |
| RedisMessage.ParseThreeFields | index.js:55-59 | three comma-free fields are read back with their tag lengths dropped |
| RedisMessage.ParseIgnoresTagText | index.js:57-59 | any comma-free tags of the right lengths are skipped without their text being checked |
| RedisMessage.ParseFormat | index.js:54-61 | a request whose fields hold no comma is read back exactly from its stored string |
| RedisMessage.FormatAlwaysParses | index.js:107 | every stored string is non-empty and parses, commas in the fields or not |
| RedisMessage.ParseFirstField | index.js:55-57 | the URL read back is whatever precedes the first comma, minus the tag length |
| RedisMessage.TagsAreCommaFree | index.js:107 | none of the three tags holds a comma |
| RedisMessage.FormatAtUrlComma | index.js:107 | the stored string of a URL `u1,u2` splits at the URL's comma |
| RedisMessage.CommaInUrlBreaksRoundTrip | index.js:55-57 | a URL holding a comma is read back cut at its first comma, so the round trip fails |
| AdmissionGate.Step | index.js:80-118 | an arrival when idle starts a capture; when busy it pushes the formatted message at the head; a tick acts only when idle with a non-empty list, pops the tail, and starts a capture only for a truthy, readable message; a finished capture clears `crawling` |
| AdmissionGate.ArriveThenFinish | index.js:109-113 | an arrival at an idle gate followed by its completion leaves flag and list as they were |
| AdmissionGate.ConveyorStep | index.js:91-117 | one step keeps "initial list, then pushes" equal to "pops, then remaining list" |
| AdmissionGate.Conveyor | index.js:91-117 | over any run, the messages in the list at the start followed by those pushed equal those popped followed by those still in it, oldest first |
| AdmissionGate.FifoFromEmpty | index.js:91-117 | from an empty list, messages are popped in exactly the order they were pushed |
| AdmissionGate.ArrivalsRouted | index.js:104-118 | every arriving request is captured at once or deferred to the list, exactly once |
| AdmissionGate.PopsAccountedStep | index.js:91-99 | one step keeps the record of what each pop did |
| AdmissionGate.PopsAccounted | index.js:91-99 | each popped message, in order, starts the capture of the request read from it when it is truthy and readable, and is lost otherwise; captures from the list and losses are exactly the pops |
| AdmissionGate.InFlight | index.js:95-112 | captures started minus captures finished equals the change of the `crawling` flag |
| AdmissionGate.QueuePoppableStep | index.js:91-117 | a step keeps every message in the list readable |
| AdmissionGate.PoppableStep | index.js:91-99 | from a readable list a step drops nothing, and a pop starts the capture its message names |
| AdmissionGate.QueueStaysPoppable | index.js:92-96 | a list of readable messages stays readable and nothing popped from it is lost |
| AdmissionGate.NothingDropped | index.js:91-99 | from a readable list, each pop starts the capture of exactly the request parsed from it |
| AdmissionGate.EnqueuedAreFormatted | index.js:107-117 | the pushed messages are the deferred requests, formatted, in order |
| AdmissionGate.DeferredCommaFree | index.js:107-117 | deferred requests are arrivals, so they are comma-free when the arrivals are |
| AdmissionGate.ParsedAll | index.js:93 | the requests read from a list of readable messages, one per message, in order |
| AdmissionGate.FormattedReadBack | index.js:107 | formatted comma-free requests read back as themselves |
| AdmissionGate.ReadBackInOrder | index.js:91-117 | pops that are a prefix of the leftover then the pushed messages read back as a prefix of the leftover requests then the pushed requests |
| AdmissionGate.ServedInOrder | index.js:87-118 | from any list of readable leftover messages, the captures started from the list are the leftover requests, oldest first, then the comma-free deferred requests exactly as they arrived |
| AdmissionGate.DeferredServedInOrder | index.js:87-118 | from start-up with an empty list, comma-free deferred requests are captured in arrival order and exactly as they arrived |
| AdmissionGate.AtMostOneInFlight | index.js:95-112 | from any idle state, at most one capture is in flight at any time |

## Left out

- Database lookups, browser calls, the file write and `fs.unlinkSync`, the cloud-storage upload and the metadata save are not modelled as code. Their results are fields of `Crawler.Environment`: stored records, the two records, the page, the image polls, the clock at the duplicate check and again when the metadata is built (lib/crawler.js:52 and 244), whether each call resolved, the uploaded URL if any, and whether the save stored the record.
- The upload and save wrappers log their own failures; those log lines, and the success log lines, are not modelled. The upload wrapper uses `await` inside a callback that is not `async` (lib/uploader.js:34); that is a SyntaxError when the module loads, so as written `require('./uploader')` fails and lib/crawler.js, and with it index.js, cannot load at all. The model takes the wrapper as evidently meant: a URL on success, undefined on failure.
- `fs.unlinkSync` is taken to succeed. If it threw, its error would be logged raw, which the model does not represent.
- The Redis client, the PubSub subscription, `setInterval` and the event emitter are transport. Each handler is one atomic `AdmissionGate.Step`.
- The `CANCRAWL` handler sets `crawling` only after awaiting `rpop`, so two handlers can interleave. That race is a concurrency artefact and is not modelled.
- `AdmissionGate.Step`: `CaptureFinished` is a separate event. The gate does not model the time a capture takes; the crawler's outcome is carried but not inspected, because `captureScreen` never throws.
- The `div.closePopup` click and `window.scrollBy(0, window.innherHeight)` change nothing that is modelled. `innherHeight` is a misspelling, so the scroll is by `undefined`, which is 0.
- The screenshot file name (uuid and time) and the log lines written on success are not modelled.
- Freshness.IsRecentDuplicate: does not model local-time `setHours` or daylight-saving shifts; the window is exactly `hours × 3 600 000` ms of integer time.
- Crawler.RunCapture: rectangle coordinates are integers, not the browser's doubles.
- Readiness.WaitForImages: the page states the predicate sees are a finite list of polls. Running out of polls counts as the timeout, and the polling schedule is not modelled. How a throw ends the wait follows puppeteer's default animation-frame polling, which is not part of this repository: a throw from the first evaluation rejects the wait, and a later throw stops the polling, so the wait times out.
- AdmissionGate.DeferredServedInOrder: assumes an empty list at start-up. The list lives in Redis and survives a restart; `AdmissionGate.ServedInOrder` covers any readable leftover list, which is drained first. Both hold only for requests whose fields hold no comma. With a comma the stored string cannot be read back, as `RedisMessage.CommaInUrlBreaksRoundTrip` shows.
- The code has no session reaper, no setting for more than one concurrent capture (the handlers are modelled as atomic; see the race above), no nested-iframe search and no retry-counted poll loops. The model follows the code: one capture at a time, one `querySelector` per lookup, and puppeteer's `waitFor` with a 60 s timeout.
- The code of lib/uploader.js, lib/metadata_saver.js, lib/connections.js, lib/logger.js, lib/screenshots_logging.js and lib/dataStore.js is not part of this model. Those files hold storage, persistence, configuration and logging; the constants in lib/dataStore.js are never read.
- services/crawler.js and server.js (a legacy demo that drives an external process) are not part of this model.

## Findings

| source | as written | input that shows it | evidently intended | confidence | as-written member | corrected member |
|---|---|---|---|---|---|---|
| lib/crawler.js:152 | the iframe selector inside `page.evaluate` reads `captureScreenInfo`, which exists only in the crawler process, so the in-page script throws a ReferenceError | any placement whose type is neither `native` nor `multiPaneNative`, once navigation succeeds | pass `crgId` and `pid` into the script and select the first iframe whose `src` names both | high (not executed) | Crawler.CaptureScreen | Crawler.CaptureScreenCorrected |
| lib/crawler.js:201-221 | the image wait runs for iframe placements too; with no expected count it collects `querySelector('img[data-cliquesnative]')`, which is `null` on a page without native images, and reading `null.complete` throws | an iframe placement whose iframe is on the page but which has no `img[data-cliquesnative]`, once the selector of the previous row is repaired | wait for native images only for the native kinds | medium (not executed) | Crawler.RepairedSelectorStillThrowsInWait | Crawler.CorrectedIframeIgnoresImages |

=== FILE: AdmissionGate.dfy ===
/** The single-slot admission gate of the worker (index.js:63, 80-118): the
    `crawling` flag and the Redis list that holds messages arriving while a
    capture runs. Each event-loop handler is one atomic step. */
module AdmissionGate {
  import opened Wrappers
  import opened Request
  import opened RedisMessage
  import Crawler

  /** `queue[0]` is the head of the list, where LPUSH inserts; the last
      element is its tail, where RPOP removes. */
  datatype Gate = Gate(crawling: bool, queue: seq<string>)

  /** The state at start-up: not crawling, and (as modelled) an empty list. */
  const Initial: Gate := Gate(false, [])

  datatype Event =
    | MessageArrives(info: CaptureInfo)           // the subscription's `message` handler
    | TimerTick                                   // the 1 s interval, emitting CANCRAWL when idle
    | CaptureFinished(outcome: Crawler.Outcome)   // `await captureScreen(…)` returns

  datatype Effect =
    | StartCapture(target: CaptureInfo)   // `captureScreen` is called for `target`
    | Enqueued(message: string)           // LPUSH of the message string
    | Dropped(message: string)            // popped but not processed
    | Released                            // `crawling = false` after a capture
    | Idle                                // nothing happens

  datatype Transition = Transition(next: Gate, effect: Effect)

  function Last(q: seq<string>): string
    requires |q| > 0
  {
    q[|q| - 1]
  }

  /** A popped string that starts a capture: truthy, and with three fields
      so that reading it does not throw. */
  predicate Poppable(message: string)
  {
    message != "" && Parse(message).Some?
  }

  /** One handler run to completion. A message arriving when idle is captured
      at once, otherwise pushed on the list's head. A tick when idle pops the
      tail; a truthy, readable message starts a capture, anything else is
      lost (an empty string is skipped, a message with fewer than three
      fields makes the handler throw before `crawling` is set). A finished
      capture always clears `crawling`, whatever its outcome: `captureScreen`
      never throws. */
  function Step(g: Gate, e: Event): (t: Transition)
    // A capture starts only from idle and marks the gate busy.
    ensures t.effect.StartCapture? ==> !g.crawling && t.next.crawling
    ensures t.next.crawling && !g.crawling ==> t.effect.StartCapture?
    ensures t.effect.Released? ==> g.crawling && !t.next.crawling
    // The list changes only by a push at the head or a pop at the tail.
    ensures t.effect.Enqueued? ==> t.next.queue == [t.effect.message] + g.queue
    ensures t.next.queue != g.queue && !t.effect.Enqueued? ==>
              |g.queue| > 0 && t.next.queue == g.queue[..|g.queue| - 1] && e.TimerTick? && !g.crawling
    // Arrival.
    ensures e.MessageArrives? && !g.crawling ==>
              t.next == Gate(true, g.queue) && t.effect == StartCapture(e.info)
    ensures e.MessageArrives? && g.crawling ==>
              t.next.crawling && t.effect == Enqueued(Format(e.info))
    // Tick.
    ensures e.TimerTick? && (g.crawling || g.queue == []) ==> t == Transition(g, Idle)
    ensures e.TimerTick? && !g.crawling && g.queue != [] ==>
              && t.next.queue == g.queue[..|g.queue| - 1]
              && (Poppable(Last(g.queue)) ==> t.effect == StartCapture(Parse(Last(g.queue)).value))
              && (!Poppable(Last(g.queue)) ==> t.effect == Dropped(Last(g.queue)) && !t.next.crawling)
    // Completion.
    ensures e.CaptureFinished? ==> t.next == Gate(false, g.queue) && (t.effect.Released? <==> g.crawling)
  {
    match e
    case MessageArrives(info) =>
      if !g.crawling then Transition(g.(crawling := true), StartCapture(info))
      else
        var message := Format(info);
        Transition(g.(queue := [message] + g.queue), Enqueued(message))
    case TimerTick =>
      if g.crawling || |g.queue| == 0 then Transition(g, Idle)
      else
        var message := Last(g.queue);
        var rest := g.queue[..|g.queue| - 1];
        if message == "" then Transition(Gate(false, rest), Dropped(message))
        else (match Parse(message)
          case None => Transition(Gate(false, rest), Dropped(message))
          case Some(fetched) => Transition(Gate(true, rest), StartCapture(fetched)))
    case CaptureFinished(_) =>
      Transition(g.(crawling := false), if g.crawling then Released else Idle)
  }

  /** Arriving at an idle gate and finishing that capture leaves the gate as
      it was: the list is not touched. */
  lemma ArriveThenFinish(g: Gate, info: CaptureInfo, outcome: Crawler.Outcome)
    requires !g.crawling
    ensures Step(Step(g, MessageArrives(info)).next, CaptureFinished(outcome)).next == g
  {
  }

  /** What a run of events did, in order. */
  datatype Log = Log(
    final: Gate,
    immediate: seq<CaptureInfo>,   // arrivals captured at once
    deferred: seq<CaptureInfo>,    // arrivals saved to the list
    enqueued: seq<string>,         // messages pushed
    popped: seq<string>,           // messages popped
    drained: seq<CaptureInfo>,     // captures started from popped messages
    dropped: seq<string>,          // popped messages not processed
    popEffects: seq<Effect>,       // what each pop did, in order
    released: nat)                 // captures finished

  /** True iff the event pops the list's tail when it reaches `g`. */
  predicate Pops(g: Gate, e: Event)
  {
    e.TimerTick? && !g.crawling && g.queue != []
  }

  /** The log after one more event. */
  function Record(prev: Log, e: Event): Log
  {
    var t := Step(prev.final, e);
    Log(t.next,
        prev.immediate + (if e.MessageArrives? && t.effect.StartCapture? then [e.info] else []),
        prev.deferred + (if e.MessageArrives? && t.effect.Enqueued? then [e.info] else []),
        prev.enqueued + (if t.effect.Enqueued? then [t.effect.message] else []),
        prev.popped + (if Pops(prev.final, e) then [Last(prev.final.queue)] else []),
        prev.drained + (if e.TimerTick? && t.effect.StartCapture? then [t.effect.target] else []),
        prev.dropped + (if t.effect.Dropped? then [t.effect.message] else []),
        prev.popEffects + (if Pops(prev.final, e) then [t.effect] else []),
        prev.released + (if t.effect.Released? then 1 else 0))
  }

  /** The events run one after another from `g`. */
  function Run(g: Gate, events: seq<Event>): Log
    decreases |events|
  {
    if |events| == 0 then Log(g, [], [], [], [], [], [], [], 0)
    else Record(Run(g, events[..|events| - 1]), events[|events| - 1])
  }

  /** The requests of the arrival events, in order. */
  function Arrivals(events: seq<Event>): seq<CaptureInfo>
    decreases |events|
  {
    if |events| == 0 then []
    else
      var e := events[|events| - 1];
      Arrivals(events[..|events| - 1]) + (if e.MessageArrives? then [e.info] else [])
  }

  function Reverse<T>(s: seq<T>): (r: seq<T>)
    ensures |r| == |s|
    ensures forall i :: 0 <= i < |s| ==> r[i] == s[|s| - 1 - i]
    decreases |s|
  {
    if |s| == 0 then [] else Reverse(s[1..]) + [s[0]]
  }

  /** One step keeps the conveyor equation. */
  lemma ConveyorStep(start: seq<string>, prev: Log, e: Event)
    requires Reverse(start) + prev.enqueued == prev.popped + Reverse(prev.final.queue)
    ensures var log := Record(prev, e);
            Reverse(start) + log.enqueued == log.popped + Reverse(log.final.queue)
  {
    var log := Record(prev, e);
    var t := Step(prev.final, e);
    var q := prev.final.queue;
    if t.effect.Enqueued? {
      var m := t.effect.message;
      assert log.enqueued == prev.enqueued + [m];
      assert log.popped == prev.popped;
      assert log.final.queue == [m] + q;
      assert Reverse([m] + q) == Reverse(q) + [m];
      calc {
        Reverse(start) + log.enqueued;
        (Reverse(start) + prev.enqueued) + [m];
        (prev.popped + Reverse(q)) + [m];
        prev.popped + Reverse([m] + q);
      }
    } else if Pops(prev.final, e) {
      var rest := q[..|q| - 1];
      assert log.enqueued == prev.enqueued;
      assert log.popped == prev.popped + [Last(q)];
      assert log.final.queue == rest;
      assert Reverse(q) == [Last(q)] + Reverse(rest);
      calc {
        Reverse(start) + log.enqueued;
        prev.popped + Reverse(q);
        prev.popped + ([Last(q)] + Reverse(rest));
        (prev.popped + [Last(q)]) + Reverse(rest);
      }
    } else {
      assert log.enqueued == prev.enqueued;
      assert log.popped == prev.popped;
      assert log.final.queue == q;
    }
  }

  /** The list is a conveyor: what was in it (oldest first) followed by what
      was pushed equals what was popped followed by what is still in it
      (oldest first). So messages leave in the order they entered, none is
      lost and none leaves twice. */
  lemma {:induction false} Conveyor(g: Gate, events: seq<Event>)
    ensures var log := Run(g, events);
            Reverse(g.queue) + log.enqueued == log.popped + Reverse(log.final.queue)
    decreases |events|
  {
    if |events| == 0 {
      assert Run(g, events).enqueued == [] && Run(g, events).popped == [];
    } else {
      Conveyor(g, events[..|events| - 1]);
      ConveyorStep(g.queue, Run(g, events[..|events| - 1]), events[|events| - 1]);
    }
  }

  /** From an empty list, messages are popped in exactly the order they were
      pushed. */
  lemma FifoFromEmpty(g: Gate, events: seq<Event>)
    requires g.queue == []
    ensures var log := Run(g, events);
            |log.popped| <= |log.enqueued| && log.popped == log.enqueued[..|log.popped|]
  {
    var log := Run(g, events);
    Conveyor(g, events);
    assert Reverse(g.queue) == [];
    assert log.enqueued == log.popped + Reverse(log.final.queue);
    assert log.enqueued[..|log.popped|] == log.popped;
  }

  /** Every arrival is routed exactly once: captured at once or saved. */
  lemma {:induction false} ArrivalsRouted(g: Gate, events: seq<Event>)
    ensures var log := Run(g, events);
            multiset(Arrivals(events)) == multiset(log.immediate) + multiset(log.deferred)
    decreases |events|
  {
    if |events| > 0 {
      ArrivalsRouted(g, events[..|events| - 1]);
    }
  }

  /** What the pop of `message` does: a truthy, readable message starts the
      capture of the request read from it; anything else is lost. */
  predicate PopFate(message: string, effect: Effect)
  {
    && (Poppable(message) ==> effect == StartCapture(Parse(message).value))
    && (!Poppable(message) ==> effect == Dropped(message))
  }

  /** One step keeps the record of what each pop did. */
  lemma PopsAccountedStep(prev: Log, e: Event)
    requires |prev.popEffects| == |prev.popped| == |prev.drained| + |prev.dropped|
    requires forall i :: 0 <= i < |prev.popped| ==> PopFate(prev.popped[i], prev.popEffects[i])
    ensures var log := Record(prev, e);
            && |log.popEffects| == |log.popped| == |log.drained| + |log.dropped|
            && forall i :: 0 <= i < |log.popped| ==> PopFate(log.popped[i], log.popEffects[i])
  {
    var log := Record(prev, e);
    var g := prev.final;
    var t := Step(g, e);
    if Pops(g, e) {
      var m := Last(g.queue);
      assert log.popped == prev.popped + [m];
      assert log.popEffects == prev.popEffects + [t.effect];
      assert PopFate(m, t.effect);
      assert t.effect.StartCapture? || t.effect.Dropped?;
      forall i | 0 <= i < |log.popped|
        ensures PopFate(log.popped[i], log.popEffects[i])
      {
        if i < |prev.popped| {
          assert log.popped[i] == prev.popped[i] && log.popEffects[i] == prev.popEffects[i];
        }
      }
    } else {
      assert log.popped == prev.popped && log.popEffects == prev.popEffects;
      assert !t.effect.Dropped? && !(e.TimerTick? && t.effect.StartCapture?);
    }
  }

  /** Every pop either starts the capture of the request its message names
      (a truthy, readable message) or loses the message, and nothing else
      starts a capture from the list or loses a message. */
  lemma {:induction false} PopsAccounted(g: Gate, events: seq<Event>)
    ensures var log := Run(g, events);
            && |log.popEffects| == |log.popped| == |log.drained| + |log.dropped|
            && forall i :: 0 <= i < |log.popped| ==> PopFate(log.popped[i], log.popEffects[i])
    decreases |events|
  {
    if |events| > 0 {
      PopsAccounted(g, events[..|events| - 1]);
      PopsAccountedStep(Run(g, events[..|events| - 1]), events[|events| - 1]);
    }
  }

  /** Captures started minus captures finished is the change in `crawling`:
      from an idle gate at most one capture is ever in flight, and exactly
      one while `crawling` is set. */
  lemma {:induction false} InFlight(g: Gate, events: seq<Event>)
    ensures var log := Run(g, events);
            |log.immediate| + |log.drained| + (if g.crawling then 1 else 0)
              == log.released + (if log.final.crawling then 1 else 0)
    decreases |events|
  {
    if |events| > 0 {
      InFlight(g, events[..|events| - 1]);
    }
  }

  /** Every message in the list can be popped without loss. */
  predicate AllPoppable(q: seq<string>)
  {
    forall i :: 0 <= i < |q| ==> Poppable(q[i])
  }

  /** One step from a list of readable messages leaves only readable
      messages. */
  lemma QueuePoppableStep(g: Gate, e: Event)
    requires AllPoppable(g.queue)
    ensures AllPoppable(Step(g, e).next.queue)
  {
    var q := Step(g, e).next.queue;
    if e.MessageArrives? && g.crawling {
      var m := Format(e.info);
      FormatAlwaysParses(e.info);
      assert Poppable(m);
      assert q == [m] + g.queue;
      forall i | 0 <= i < |q|
        ensures Poppable(q[i])
      {
        if i > 0 {
          assert q[i] == g.queue[i - 1];
        }
      }
    } else if Pops(g, e) {
      assert q == g.queue[..|g.queue| - 1];
      forall i | 0 <= i < |q|
        ensures Poppable(q[i])
      {
        assert q[i] == g.queue[i];
      }
    } else {
      assert q == g.queue;
    }
  }

  /** One step from a list of readable messages drops nothing and drains the
      request its popped message names. */
  lemma PoppableStep(prev: Log, e: Event)
    requires AllPoppable(prev.final.queue)
    ensures var log := Record(prev, e);
            && log.dropped == prev.dropped
            && AllPoppable(log.final.queue)
            && (Pops(prev.final, e) ==>
                  log.popped == prev.popped + [Last(prev.final.queue)] &&
                  log.drained == prev.drained + [Parse(Last(prev.final.queue)).value])
            && (!Pops(prev.final, e) ==> log.popped == prev.popped && log.drained == prev.drained)
  {
    var g := prev.final;
    var t := Step(g, e);
    QueuePoppableStep(g, e);
    if Pops(g, e) {
      assert Poppable(g.queue[|g.queue| - 1]);
      assert t.effect == StartCapture(Parse(Last(g.queue)).value);
    } else if e.TimerTick? {
      assert t.effect == Idle;
    }
  }

  /** A list holding only readable messages keeps that property, and
      nothing popped from it is dropped. */
  lemma {:induction false} QueueStaysPoppable(g: Gate, events: seq<Event>)
    requires AllPoppable(g.queue)
    ensures var log := Run(g, events);
            log.dropped == [] && AllPoppable(log.final.queue)
    decreases |events|
  {
    if |events| > 0 {
      QueueStaysPoppable(g, events[..|events| - 1]);
      PoppableStep(Run(g, events[..|events| - 1]), events[|events| - 1]);
    }
  }

  /** Messages the gate stores itself are never lost: if the list starts out
      holding only readable messages, nothing is dropped and each drained
      capture is for the request read from its popped message. */
  lemma {:induction false} NothingDropped(g: Gate, events: seq<Event>)
    requires AllPoppable(g.queue)
    ensures var log := Run(g, events);
            && log.dropped == []
            && |log.drained| == |log.popped|
            && forall i :: 0 <= i < |log.popped| ==> Parse(log.popped[i]) == Some(log.drained[i])
    decreases |events|
  {
    QueueStaysPoppable(g, events);
    if |events| > 0 {
      var init := events[..|events| - 1];
      NothingDropped(g, init);
      QueueStaysPoppable(g, init);
      PoppableStep(Run(g, init), events[|events| - 1]);
    }
  }

  /** The pushed messages are the deferred requests, formatted. */
  lemma {:induction false} EnqueuedAreFormatted(g: Gate, events: seq<Event>)
    ensures var log := Run(g, events);
            |log.enqueued| == |log.deferred| &&
            forall i :: 0 <= i < |log.deferred| ==> log.enqueued[i] == Format(log.deferred[i])
    decreases |events|
  {
    if |events| > 0 {
      EnqueuedAreFormatted(g, events[..|events| - 1]);
    }
  }

  predicate ArrivalsCommaFree(events: seq<Event>)
  {
    forall i :: 0 <= i < |events| && events[i].MessageArrives? ==> CommaFree(events[i].info)
  }

  /** The deferred requests are among the arrivals. */
  lemma {:induction false} DeferredCommaFree(g: Gate, events: seq<Event>)
    requires ArrivalsCommaFree(events)
    ensures forall info <- Run(g, events).deferred :: CommaFree(info)
    decreases |events|
  {
    if |events| > 0 {
      var init := events[..|events| - 1];
      assert ArrivalsCommaFree(init) by {
        assert forall i :: 0 <= i < |init| ==> init[i] == events[i];
      }
      DeferredCommaFree(g, init);
      var prev := Run(g, init);
      var e := events[|events| - 1];
      var t := Step(prev.final, e);
      var added := if e.MessageArrives? && t.effect.Enqueued? then [e.info] else [];
      assert Run(g, events).deferred == prev.deferred + added;
      if e.MessageArrives? {
        assert events[|events| - 1].MessageArrives?;
        assert CommaFree(e.info);
      }

    }
  }

  /** The requests read from a list of readable messages, in order. */
  function ParsedAll(q: seq<string>): (r: seq<CaptureInfo>)
    requires AllPoppable(q)
    ensures |r| == |q| && forall i :: 0 <= i < |q| ==> Parse(q[i]) == Some(r[i])
  {
    seq(|q|, i requires 0 <= i < |q| => Parse(q[i]).value)
  }

  /** The list survives a restart of the worker, so it may hold messages at
      start-up. If those are readable and the new arrivals are comma-free,
      the captures started from the list are, in order, the leftover
      messages' requests, oldest first, and then the deferred requests
      exactly as they arrived. */
  lemma ServedInOrder(g: Gate, events: seq<Event>)
    requires AllPoppable(g.queue) && ArrivalsCommaFree(events)
    ensures AllPoppable(Reverse(g.queue))
    ensures var log := Run(g, events);
            var expected := ParsedAll(Reverse(g.queue)) + log.deferred;
            |log.drained| <= |expected| && log.drained == expected[..|log.drained|]
  {
    var q0 := g.queue;
    var rq := Reverse(q0);
    assert AllPoppable(rq) by {
      assert forall i :: 0 <= i < |rq| ==> rq[i] == q0[|q0| - 1 - i];
    }
    var log := Run(g, events);
    Conveyor(g, events);
    NothingDropped(g, events);
    EnqueuedAreFormatted(g, events);
    DeferredCommaFree(g, events);
    FormattedReadBack(log.enqueued, log.deferred);
    ReadBackInOrder(rq, log.enqueued, log.popped, Reverse(log.final.queue), log.drained, log.deferred);
  }

  /** Formatted comma-free requests read back as themselves. */
  lemma FormattedReadBack(enqueued: seq<string>, deferred: seq<CaptureInfo>)
    requires |enqueued| == |deferred| && forall i :: 0 <= i < |deferred| ==> enqueued[i] == Format(deferred[i])
    requires forall info <- deferred :: CommaFree(info)
    ensures forall i :: 0 <= i < |enqueued| ==> Parse(enqueued[i]) == Some(deferred[i])
  {
    forall i | 0 <= i < |enqueued|
      ensures Parse(enqueued[i]) == Some(deferred[i])
    {
      assert deferred[i] in deferred;
      ParseFormat(deferred[i]);
    }
  }

  /** The sequence arithmetic behind `ServedInOrder`: when the pops are a
      prefix of the leftover messages followed by the pushed ones, the
      requests read from the pops are a prefix of the leftover requests
      followed by those read from the pushed messages. */
  lemma ReadBackInOrder(rq: seq<string>, enqueued: seq<string>, popped: seq<string>, rest: seq<string>,
                        drained: seq<CaptureInfo>, deferred: seq<CaptureInfo>)
    requires AllPoppable(rq)
    requires rq + enqueued == popped + rest
    requires |drained| == |popped| && forall i :: 0 <= i < |popped| ==> Parse(popped[i]) == Some(drained[i])
    requires |enqueued| == |deferred| && forall i :: 0 <= i < |enqueued| ==> Parse(enqueued[i]) == Some(deferred[i])
    ensures var expected := ParsedAll(rq) + deferred;
            |drained| <= |expected| && drained == expected[..|drained|]
  {
    var expected := ParsedAll(rq) + deferred;
    var pushedOrder := rq + enqueued;
    assert |popped| <= |pushedOrder|;
    forall i | 0 <= i < |drained|
      ensures drained[i] == expected[i]
    {
      assert popped[i] == pushedOrder[i];
      if i < |rq| {
        assert Parse(rq[i]) == Some(ParsedAll(rq)[i]);
      } else {
        assert popped[i] == enqueued[i - |rq|];
      }
    }
  }

  /** From start-up with an empty list, comma-free deferred requests are
      captured in arrival order and exactly as they arrived. */
  lemma DeferredServedInOrder(events: seq<Event>)
    requires ArrivalsCommaFree(events)
    ensures var log := Run(Initial, events);
            |log.drained| <= |log.deferred| && log.drained == log.deferred[..|log.drained|]
  {
    ServedInOrder(Initial, events);
    assert ParsedAll(Reverse(Initial.queue)) == [];
  }

  /** From any idle state, at most one capture is in flight at any time. */
  lemma AtMostOneInFlight(g: Gate, events: seq<Event>)
    requires !g.crawling
    ensures var log := Run(g, events);
            0 <= |log.immediate| + |log.drained| - log.released <= 1
  {
    InFlight(g, events);
  }
}

=== FILE: ClipWindow.dfy ===
/** Placement of the fixed `clipWidth × clipHeight` screenshot window
    (lib/crawler.js:187-196, 222-230). */
module ClipWindow {
  import opened Page

  /** Top-left corner of the window in page coordinates. */
  datatype Offset = Offset(top: int, left: int)

  /** The window's offset along one axis for an element spanning
      `[start, start + extent]`: zero while the element's far edge fits in the
      window, otherwise just far enough for the window's far edge to meet it. */
  function AxisOffset(start: int, extent: int, clip: int): (offset: int)
    ensures offset >= 0
    ensures offset == 0 <==> start + extent <= clip
    ensures offset > 0 ==> offset + clip == start + extent
    ensures offset + clip >= start + extent
  {
    if start + extent > clip then start + extent - clip else 0
  }

  /** `topOffset` and `leftOffset` for an element's rectangle. */
  function ClipOffset(rect: Rect, clipWidth: int, clipHeight: int): (o: Offset)
    ensures o.top >= 0 && o.left >= 0
    ensures o.top > 0 ==> o.top + clipHeight == rect.top + rect.height
    ensures o.left > 0 ==> o.left + clipWidth == rect.left + rect.width
  {
    Offset(AxisOffset(rect.top, rect.height, clipHeight), AxisOffset(rect.left, rect.width, clipWidth))
  }

  /** The window `[o, o + clip]` holds the span `[start, start + extent]`. */
  predicate Covers(o: int, clip: int, start: int, extent: int)
  {
    o <= start && start + extent <= o + clip
  }

  /** No smaller non-negative offset brings the element's far edge into the
      window: the window moves only as far as it must. */
  lemma AxisOffsetIsLeast(start: int, extent: int, clip: int, other: int)
    requires other >= 0 && other + clip >= start + extent
    ensures AxisOffset(start, extent, clip) <= other
  {
  }

  /** On one axis, for an element starting at or after the page origin, the
      window holds the element exactly when the element is no longer than the
      window; a longer element loses its leading edge. */
  lemma AxisContainment(start: int, extent: int, clip: int)
    requires start >= 0 && extent >= 0
    ensures Covers(AxisOffset(start, extent, clip), clip, start, extent) <==> extent <= clip
  {
  }

  /** Containment on both axes: an element inside the page's positive quadrant
      that fits the window is wholly inside the captured window. */
  lemma {:induction false} ClipContainsElement(rect: Rect, clipWidth: int, clipHeight: int)
    requires rect.top >= 0 && rect.left >= 0 && rect.width >= 0 && rect.height >= 0
    requires rect.height <= clipHeight && rect.width <= clipWidth
    ensures var o := ClipOffset(rect, clipWidth, clipHeight);
            Covers(o.top, clipHeight, rect.top, rect.height) && Covers(o.left, clipWidth, rect.left, rect.width)
  {
    AxisContainment(rect.top, rect.height, clipHeight);
    AxisContainment(rect.left, rect.width, clipWidth);
  }

  /** An element lower and further right than a 1024 × 768 window: offsets
      700 + 300 - 768 and 900 + 300 - 1024. */
  lemma BottomRightExample()
    ensures ClipOffset(Rect(700, 900, 300, 300), 1024, 768) == Offset(232, 176)
  {
  }
}

=== FILE: Crawler.dfy ===
/** `captureScreen` (lib/crawler.js:35-271) with its input/output replaced by
    an environment of already-known results: the stored-screenshot lookup, the
    two record lookups, the page, the successive image states seen by the
    wait, and whether navigation, screenshot, upload and save succeed. Every
    thrown value is caught and becomes one log line, so the function is total. */
module Crawler {
  import opened Wrappers
  import opened JsStrings
  import opened Request
  import opened Faults
  import opened Urls
  import opened Freshness
  import opened Placements
  import opened Page
  import opened ClipWindow
  import opened Readiness

  /** `Screenshots.screenshotExpirationHours`, `clipWidth` and `clipHeight`. */
  datatype Config = Config(screenshotExpirationHours: int, clipWidth: int, clipHeight: int)

  /** Outcomes of the collaborator calls. The three lookups and the browser
      calls either resolve or reject. The upload and the save never reject:
      a failed upload resolves to no URL, a failed save to nothing, each
      after its wrapper has logged the error. */
  datatype IoResults = IoResults(
    findOk: bool,                       // `Screenshot.find` resolves
    creativeGroupLookupOk: bool,        // `getNestedObjectById(crgId, 'CreativeGroup')` resolves
    placementLookupOk: bool,            // `getNestedObjectById(pid, 'Placement')` resolves
    navigationOk: bool,                 // `page.goto` resolves
    screenshotOk: bool,                 // `page.screenshot` resolves
    uploadedImageUrl: Option<string>,   // the public URL, or undefined after a failed upload
    metadataSaved: bool)                // whether the save actually stored the record

  datatype Environment = Environment(
    records: seq<ScreenshotRecord>,     // stored screenshots for (pid, crgId), as returned
    now: int,                           // the clock at the duplicate check, in milliseconds
    savedAt: int,                       // the clock when the metadata is built, after the upload
    creativeGroup: Option<CreativeGroup>,
    placement: Option<Placement>,
    dom: Dom,                           // the page when the rectangle is looked up
    polls: seq<Poll>,                   // the page at each evaluation of the wait's predicate
    io: IoResults)

  /** The `clip` option of `page.screenshot`. */
  datatype Clip = Clip(x: int, y: int, width: int, height: int)

  /** The screenshot record handed to the metadata saver (lib/crawler.js:243-257);
      `imageUrl` is undefined when the upload failed. */
  datatype Metadata = Metadata(
    tstamp: int, h: int, w: int, url: string, imageUrl: Option<string>,
    placement: string, creativeGroup: string,
    advertiser: Option<string>, publisher: Option<string>, page: Option<string>,
    site: Option<string>, campaign: Option<string>, campaignName: Option<string>)

  /** A screenshot of `element` that was taken and handed, with its metadata,
      to the upload and the saver (`stored` tells whether the save stored it),
      or the one line logged by the `catch` block. */
  datatype Outcome =
    | Captured(element: Rect, clip: Clip, metadata: Metadata, stored: bool)
    | Logged(entry: LogEntry)

  function RecentMessage(info: CaptureInfo): (m: string)
    ensures StartsWith(m, "Screenshot for " + info.websiteUrl)
  {
    var head := "Screenshot for " + info.websiteUrl;
    var rest := " with creativeGroupID: " + info.crgId + " and placementId: " + info.pid + " has been created recently.";
    head + rest
  }

  /** What the `catch` block makes of a thrown value. */
  function Fail(err: Thrown, info: CaptureInfo): Outcome
  {
    Logged(Classify(err, info))
  }

  /** The request as it stands after lib/crawler.js:112-114: the URL has a
      protocol prefix and the ids are untouched. */
  function Target(info: CaptureInfo): (target: CaptureInfo)
    ensures HasProtocol(target.websiteUrl) && target.pid == info.pid && target.crgId == info.crgId
  {
    info.(websiteUrl := Normalize(info.websiteUrl))
  }

  /** The metadata record: sizes, normalised URL, ids and the parents' ids. */
  function MetadataFor(target: CaptureInfo, creativeGroup: CreativeGroup, placement: Placement,
                       imageUrl: Option<string>, cfg: Config, tstamp: int): (md: Metadata)
    ensures md.tstamp == tstamp && md.imageUrl == imageUrl
    ensures md.w == cfg.clipWidth && md.h == cfg.clipHeight
    ensures md.placement == target.pid && md.creativeGroup == target.crgId && md.url == target.websiteUrl
    ensures md.advertiser == creativeGroup.parentAdvertiser
    ensures md.publisher == placement.parentPublisher && md.page == placement.parentPage && md.site == placement.parentSite
    ensures md.campaign.Some? <==> creativeGroup.parentCampaign.Some?
    ensures md.campaignName.Some? <==> creativeGroup.parentCampaign.Some?
    ensures creativeGroup.parentCampaign.Some? ==>
              md.campaign.value == creativeGroup.parentCampaign.value.id &&
              md.campaignName.value == creativeGroup.parentCampaign.value.name
  {
    var campaign := creativeGroup.parentCampaign;
    Metadata(tstamp, cfg.clipHeight, cfg.clipWidth, target.websiteUrl, imageUrl, target.pid, target.crgId,
             creativeGroup.parentAdvertiser, placement.parentPublisher, placement.parentPage,
             placement.parentSite,
             if campaign.Some? then Some(campaign.value.id) else None,
             if campaign.Some? then Some(campaign.value.name) else None)
  }

  /** Until fully corrected, the image wait runs for every placement kind;
      corrected, it runs only for the native kinds, whose images it waits for. */
  predicate NeedsImageWait(kind: Kind, revision: Revision)
  {
    revision != Corrected || !kind.Iframe?
  }

  /** The wait for the page's images is satisfied, or skipped. */
  predicate ImagesReady(kind: Kind, revision: Revision, polls: seq<Poll>)
  {
    NeedsImageWait(kind, revision) ==> WaitForImages(ExpectedCount(kind), polls) == Satisfied
  }

  /** The placement record's kind, when the record exists and its kind can
      be read. */
  predicate KindIs(env: Environment, kind: Kind)
  {
    env.placement.Some? && PlacementKind(env.placement.value) == Success(kind)
  }

  /** The stored-screenshot lookup resolved and found no fresh screenshot. */
  predicate PassesDuplicateCheck(env: Environment, cfg: Config)
  {
    env.io.findOk && !IsRecentDuplicate(env.records, env.now, cfg.screenshotExpirationHours)
  }

  /** Both record lookups resolved (possibly to nothing). */
  predicate RecordsRead(env: Environment)
  {
    env.io.creativeGroupLookupOk && env.io.placementLookupOk
  }

  /** The request reaches the navigation with both records and a known kind. */
  predicate Resolved(env: Environment, cfg: Config, kind: Kind)
  {
    PassesDuplicateCheck(env, cfg) && RecordsRead(env) && env.creativeGroup.Some? && KindIs(env, kind)
  }

  /** The request passes the checks and its placement kind can be read, so
      the browser is asked to load the page. */
  predicate ReachesNavigation(env: Environment, cfg: Config)
  {
    PassesDuplicateCheck(env, cfg) && RecordsRead(env) && env.creativeGroup.Some? &&
    env.placement.Some? && PlacementKind(env.placement.value).Success?
  }

  /** The body of `captureScreen` under one reading of the code. */
  function RunCapture(revision: Revision, info: CaptureInfo, env: Environment, cfg: Config): (o: Outcome)
    // The duplicate check: a rejected lookup is logged raw, a fresh first record is a warning.
    ensures !env.io.findOk ==> o == Logged(RawError(Untagged(LookupFailed)))
    ensures o.Logged? && o.entry.Warning? <==>
              env.io.findOk && IsRecentDuplicate(env.records, env.now, cfg.screenshotExpirationHours)
    ensures env.io.findOk && IsRecentDuplicate(env.records, env.now, cfg.screenshotExpirationHours) ==>
              o == Logged(Warning(RecentMessage(info)))
    // The record lookups: a rejection is logged raw; a missing record is an error, the creative group first.
    ensures PassesDuplicateCheck(env, cfg) && !RecordsRead(env) ==> o == Logged(RawError(Untagged(LookupFailed)))
    ensures PassesDuplicateCheck(env, cfg) && RecordsRead(env) && env.creativeGroup.None? ==>
              o == Logged(ErrorLine(ErrorText(info, CreativeGroupMissing(info.crgId))))
    ensures PassesDuplicateCheck(env, cfg) && RecordsRead(env) && env.creativeGroup.Some? && env.placement.None? ==>
              o == Logged(ErrorLine(ErrorText(info, PlacementMissing(info.pid))))
    // Past the record checks, every value thrown without a log level is logged raw:
    // the unreadable kind, the navigation, the in-page lookup, the image wait and the screenshot.
    ensures (PassesDuplicateCheck(env, cfg) && RecordsRead(env) && env.creativeGroup.Some? && env.placement.Some? &&
             PlacementKind(env.placement.value).Failure?) ==>
              o == Logged(RawError(Untagged(TypeError)))
    ensures ReachesNavigation(env, cfg) && !env.io.navigationOk ==> o == Logged(RawError(Untagged(NavigationFailed)))
    ensures ReachesNavigation(env, cfg) && env.io.navigationOk ==>
              var kind := PlacementKind(env.placement.value).value;
              var found := LocateRect(kind, env.dom, Target(info), revision);
              var wait := WaitForImages(ExpectedCount(kind), env.polls);
              && (found.Failure? ==> o == Logged(RawError(Untagged(found.error))))
              && (found.Success? && found.value.Some? && NeedsImageWait(kind, revision) && wait.WaitFailed? ==>
                    o == Logged(RawError(Untagged(wait.cause))))
              && (found.Success? && found.value.Some? && ImagesReady(kind, revision, env.polls) && !env.io.screenshotOk ==>
                    o == Logged(RawError(Untagged(ScreenshotFailed))))
    // A capture needs the checks, the navigation, the located element, the image wait and the screenshot.
    ensures o.Captured? ==>
              exists kind :: Resolved(env, cfg, kind) &&
                LocateRect(kind, env.dom, Target(info), revision) == Success(Some(o.element)) &&
                ImagesReady(kind, revision, env.polls)
    ensures o.Captured? ==> env.io.navigationOk && env.io.screenshotOk
    // What is uploaded and saved: the normalised URL, the ids, the upload's URL if any.
    ensures o.Captured? ==>
              && o.metadata.url == Normalize(info.websiteUrl) && HasProtocol(o.metadata.url)
              && o.metadata.imageUrl == env.io.uploadedImageUrl
              && o.metadata.placement == info.pid && o.metadata.creativeGroup == info.crgId
              && o.metadata.w == cfg.clipWidth && o.metadata.h == cfg.clipHeight
              && o.stored == env.io.metadataSaved
    // The record saved is the one built from the normalised request, both parent records, the upload's URL and the save time.
    ensures o.Captured? ==>
              env.creativeGroup.Some? && env.placement.Some? &&
              o.metadata == MetadataFor(Target(info), env.creativeGroup.value, env.placement.value,
                                        env.io.uploadedImageUrl, cfg, env.savedAt)
    // The screenshot is clipped at the offsets computed for the found element.
    ensures o.Captured? ==>
              var offset := ClipOffset(o.element, cfg.clipWidth, cfg.clipHeight);
              o.clip == Clip(offset.left, offset.top, cfg.clipWidth, cfg.clipHeight)
    // The window is the configured size, never left of or above the page, and holds the element when it fits.
    ensures o.Captured? ==>
              o.clip.width == cfg.clipWidth && o.clip.height == cfg.clipHeight && o.clip.x >= 0 && o.clip.y >= 0
    ensures o.Captured? && o.element.top >= 0 && o.element.left >= 0 && o.element.width >= 0 && o.element.height >= 0 &&
            o.element.width <= cfg.clipWidth && o.element.height <= cfg.clipHeight ==>
              Covers(o.clip.y, cfg.clipHeight, o.element.top, o.element.height) &&
              Covers(o.clip.x, cfg.clipWidth, o.element.left, o.element.width)
    // Errors raised after normalisation name the normalised URL.
    ensures o.Logged? && o.entry.ErrorLine? && env.creativeGroup.Some? && env.placement.Some? ==>
              StartsWith(o.entry.text, ErrorPrefix + Normalize(info.websiteUrl))
  {
    if !env.io.findOk then Fail(Untagged(LookupFailed), info)
    else if IsRecentDuplicate(env.records, env.now, cfg.screenshotExpirationHours) then
      Fail(Tagged(WarnLevel, RecentMessage(info)), info)
    else if !RecordsRead(env) then Fail(Untagged(LookupFailed), info)
    else match Resolve(env.creativeGroup, env.placement, info)
      case Failure(err) => Fail(err, info)
      case Success((creativeGroup, placement, kind)) =>
        var target := Target(info);
        if !env.io.navigationOk then Fail(Untagged(NavigationFailed), target)
        else match LocateRect(kind, env.dom, target, revision)
          case Failure(cause) => Fail(Untagged(cause), target)
          case Success(None) => Fail(Tagged(ErrorLevel, NotFoundMessage(kind, target)), target)
          case Success(Some(rect)) =>
            var offset := ClipOffset(rect, cfg.clipWidth, cfg.clipHeight);
            var wait := if NeedsImageWait(kind, revision) then WaitForImages(ExpectedCount(kind), env.polls)
                        else Satisfied;
            if wait.WaitFailed? then Fail(Untagged(wait.cause), target)
            else if !env.io.screenshotOk then Fail(Untagged(ScreenshotFailed), target)
            else
              Captured(rect, Clip(offset.left, offset.top, cfg.clipWidth, cfg.clipHeight),
                       MetadataFor(target, creativeGroup, placement, env.io.uploadedImageUrl, cfg, env.savedAt),
                       env.io.metadataSaved)
  }

  /** For every placement kind: once the checks pass, the request is captured
      exactly when the navigation succeeds, the element is found, the image
      wait (when it runs) succeeds and the screenshot is taken; and the
      captured element is the one found. */
  lemma CapturedIffStepsSucceed(revision: Revision, info: CaptureInfo, env: Environment, cfg: Config, kind: Kind)
    requires Resolved(env, cfg, kind)
    ensures var found := LocateRect(kind, env.dom, Target(info), revision);
            var o := RunCapture(revision, info, env, cfg);
            && (o.Captured? <==>
                  env.io.navigationOk && found.Success? && found.value.Some? &&
                  ImagesReady(kind, revision, env.polls) && env.io.screenshotOk)
            && (o.Captured? ==> found == Success(Some(o.element)))
  {
    var found := LocateRect(kind, env.dom, Target(info), revision);
    var o := RunCapture(revision, info, env, cfg);
    assert Resolve(env.creativeGroup, env.placement, info)
        == Success((env.creativeGroup.value, env.placement.value, kind));
    if !env.io.navigationOk {
      assert o == Fail(Untagged(NavigationFailed), Target(info));
    } else if found.Failure? || found.value.None? {
      assert o.Logged?;
    } else {
      var wait := if NeedsImageWait(kind, revision) then WaitForImages(ExpectedCount(kind), env.polls)
                  else Satisfied;
      assert wait == Satisfied <==> ImagesReady(kind, revision, env.polls);
      if wait.WaitFailed? || !env.io.screenshotOk {
        assert o.Logged?;
      } else {
        assert o.Captured? && o.element == found.value.value;
      }
    }
  }

  /** For every placement kind: an element that is not on the page is
      reported with that kind's not-found text, naming the normalised URL. */
  lemma NotFoundIsReported(revision: Revision, info: CaptureInfo, env: Environment, cfg: Config, kind: Kind)
    requires Resolved(env, cfg, kind) && env.io.navigationOk
    requires LocateRect(kind, env.dom, Target(info), revision) == Success(None)
    ensures RunCapture(revision, info, env, cfg)
            == Logged(ErrorLine(ErrorText(Target(info), NotFoundMessage(kind, Target(info)))))
  {
    assert Resolve(env.creativeGroup, env.placement, info).Success?;
  }

  /** `captureScreen` as the source has it. No iframe placement is ever
      captured: once the request gets past the checks and the navigation, the
      in-page lookup throws a ReferenceError, logged raw. */
  function CaptureScreen(info: CaptureInfo, env: Environment, cfg: Config): (o: Outcome)
    ensures KindIs(env, Iframe) ==> !o.Captured?
    ensures Resolved(env, cfg, Iframe) && env.io.navigationOk ==>
              o == Logged(RawError(Untagged(ReferenceError)))
  {
    RunCapture(AsWritten, info, env, cfg)
  }

  /** `captureScreen` with the iframe path repaired: the ids are given to the
      in-page lookup, and the image wait is skipped for iframes. */
  function CaptureScreenCorrected(info: CaptureInfo, env: Environment, cfg: Config): (o: Outcome)
    ensures KindIs(env, Iframe) ==> !(o.Logged? && o.entry == RawError(Untagged(ReferenceError)))
    ensures Resolved(env, cfg, Iframe) && env.io.navigationOk && env.io.screenshotOk ==>
              (o.Captured? <==> MatchingFrame(env.dom.iframes, info.crgId, info.pid).Some?) &&
              (o.Captured? ==> o.element == MatchingFrame(env.dom.iframes, info.crgId, info.pid).value)
  {
    RunCapture(Corrected, info, env, cfg)
  }

  /** Repairing the selector alone is not enough: an iframe placement whose
      iframe is found, on a page without native images, still fails, because
      the image wait's first evaluation reads `complete` of `null`. */
  lemma RepairedSelectorStillThrowsInWait(info: CaptureInfo, env: Environment, cfg: Config)
    requires Resolved(env, cfg, Iframe) && env.io.navigationOk
    requires MatchingFrame(env.dom.iframes, info.crgId, info.pid).Some?
    requires |env.polls| > 0 && env.polls[0].elapsedMillis < WaitTimeoutMillis && env.polls[0].images == []
    ensures RunCapture(SelectorRepaired, info, env, cfg) == Logged(RawError(Untagged(TypeError)))
  {
    assert ReachesNavigation(env, cfg);
    assert LocateRect(Iframe, env.dom, Target(info), SelectorRepaired).value.Some?;
    WaitThrowsWithoutNativeImage(None, env.polls);
  }

  /** Corrected, an iframe capture does not depend on the page's native
      images at all. */
  lemma CorrectedIframeIgnoresImages(info: CaptureInfo, env: Environment, cfg: Config, polls: seq<Poll>)
    requires KindIs(env, Iframe)
    ensures CaptureScreenCorrected(info, env, cfg) == CaptureScreenCorrected(info, env.(polls := polls), cfg)
  {
  }

  /** For a native placement whose image is on the page, with the browser
      calls succeeding, the capture happens exactly when the wait for the
      first native image succeeds. */
  lemma NativeCapturedIffImageLoads(info: CaptureInfo, env: Environment, cfg: Config)
    requires Resolved(env, cfg, Native)
    requires env.io.navigationOk && env.io.screenshotOk
    requires |env.dom.nativeImages| > 0
    ensures CaptureScreen(info, env, cfg).Captured? <==> WaitForImages(None, env.polls) == Satisfied
  {
  }
}

=== FILE: Faults.dfy ===
/** What can go wrong inside `captureScreen` and how its `catch` block turns
    each failure into one log line (lib/crawler.js:260-270). */
module Faults {
  import opened JsStrings
  import opened Request

  /** The untagged exceptions the pipeline can meet: JavaScript runtime errors
      and rejections of the database and browser calls. The upload and the
      metadata save never reject: their wrappers log a failure and resolve. */
  datatype Cause =
    | TypeError          // property read on `undefined` or `null`
    | ReferenceError     // an identifier that is not in scope in the page
    | TimeoutError       // `waitFor` gave up after its 60 s budget
    | LookupFailed       // `Screenshot.find` or `getNestedObjectById` rejected
    | NavigationFailed   // `page.goto` rejected
    | ScreenshotFailed   // `page.screenshot` rejected

  /** A thrown value: either the source's own `{logLevel, message}` object or
      an exception raised by the runtime or a collaborator. */
  datatype Thrown = Tagged(logLevel: string, message: string) | Untagged(cause: Cause)

  /** One line written by the logger. */
  datatype LogEntry =
    | Warning(text: string)     // `logger.warn`
    | ErrorLine(text: string)   // `logger.error` with the request details
    | RawError(thrown: Thrown)  // `logger.error(err)` on the raw value

  const WarnLevel: string := "warn"
  const ErrorLevel: string := "error"
  const ErrorPrefix: string := "Error scraping the following screenshot: ------ websiteUrl: "

  /** The `logger.error` text for a tagged error, naming the request. */
  function ErrorText(info: CaptureInfo, message: string): (text: string)
    ensures StartsWith(text, ErrorPrefix + info.websiteUrl)
    ensures |message| < |text| && text[|text| - |message| - 1..] == message + "."
  {
    ErrorPrefix + info.websiteUrl + ", pid: " + info.pid + ", crgId: " + info.crgId
    + ". Error message: " + message + "."
  }

  /** The `catch` block of `captureScreen`: a tagged `warn` error becomes a
      warning carrying its message, any other tagged error (a truthy level)
      an error line naming the request, and everything else is logged raw. */
  function Classify(err: Thrown, info: CaptureInfo): (entry: LogEntry)
    ensures entry.Warning? <==> err.Tagged? && err.logLevel == WarnLevel
    ensures entry.Warning? ==> entry.text == err.message
    ensures entry.ErrorLine? <==> err.Tagged? && err.logLevel != "" && err.logLevel != WarnLevel
    ensures entry.ErrorLine? ==> StartsWith(entry.text, ErrorPrefix + info.websiteUrl)
    ensures entry.ErrorLine? ==>
              |err.message| < |entry.text| &&
              entry.text[|entry.text| - |err.message| - 1..] == err.message + "."
    ensures entry.RawError? <==> err.Untagged? || err.logLevel == ""
    ensures entry.RawError? ==> entry.thrown == err
  {
    match err
    case Tagged(level, message) =>
      if level != "" then
        if level == WarnLevel then Warning(message)
        else ErrorLine(ErrorText(info, message))
      else RawError(err)
    case Untagged(_) => RawError(err)
  }
}

=== FILE: Freshness.dfy ===
/** The "recent duplicate" check at the start of `captureScreen`
    (lib/crawler.js:45-62). Time is integer milliseconds. */
module Freshness {

  const MillisPerHour: int := 3_600_000

  /** A stored screenshot as returned by the lookup on (placement, creative group). */
  datatype ScreenshotRecord = ScreenshotRecord(tstamp: int)

  /** True iff the request must be skipped: the first returned record was
      created less than `expirationHours` hours before `now`. Later records
      are never looked at and an empty result never skips. */
  function IsRecentDuplicate(records: seq<ScreenshotRecord>, now: int, expirationHours: int): (recent: bool)
    ensures recent <==> |records| > 0 && now - records[0].tstamp < expirationHours * MillisPerHour
  {
    if |records| > 0 then
      var createdTime := records[0].tstamp;
      var expirationHoursAgo := now - expirationHours * MillisPerHour;
      expirationHoursAgo < createdTime
    else
      false
  }

  /** Only the first record decides. */
  lemma OnlyFirstRecordExamined(first: ScreenshotRecord, rest1: seq<ScreenshotRecord>,
                                rest2: seq<ScreenshotRecord>, now: int, expirationHours: int)
    ensures IsRecentDuplicate([first] + rest1, now, expirationHours)
         == IsRecentDuplicate([first] + rest2, now, expirationHours)
  {
  }

  /** A record that is recent now was recent at every earlier moment after it
      was made; one that has expired stays expired. */
  lemma RecencyOnlyExpires(records: seq<ScreenshotRecord>, now: int, later: int, expirationHours: int)
    requires now <= later
    ensures IsRecentDuplicate(records, later, expirationHours) ==> IsRecentDuplicate(records, now, expirationHours)
  {
  }
}

=== FILE: JsStrings.dfy ===
/** The JavaScript string operations the crawler and the message codec rely
    on: `substring` with its index clamping, `split` on one character, and
    prefix and substring tests. Strings are sequences of characters. */
module JsStrings {

  /** True iff `p` is a prefix of `s`. */
  predicate StartsWith(s: string, p: string)
  {
    |p| <= |s| && s[..|p|] == p
  }

  /** True iff `sub` occurs somewhere in `s` (CSS `[attr*="sub"]`). */
  predicate Contains(s: string, sub: string)
    decreases |s|
  {
    StartsWith(s, sub) || (|s| > 0 && Contains(s[1..], sub))
  }

  /** A string starts with whatever was put in front of it. */
  lemma StartsWithAppend(p: string, rest: string)
    ensures StartsWith(p + rest, p)
  {
    assert (p + rest)[..|p|] == p;
  }

  /** A string contains every piece it was built from. */
  lemma {:induction false} ContainsInfix(a: string, x: string, b: string)
    ensures Contains(a + x + b, x)
    decreases |a|
  {
    var s := a + x + b;
    if |a| == 0 {
      assert s == x + b;
      StartsWithAppend(x, b);
    } else {
      assert s[1..] == a[1..] + x + b;
      ContainsInfix(a[1..], x, b);
    }
  }

  /** `s.substring(0, n)`: the first `n` characters, or all of `s` when it is
      shorter than `n`. */
  function SubstringTo(s: string, n: nat): (r: string)
    ensures |r| == if n <= |s| then n else |s|
    ensures StartsWith(s, r)
  {
    if n <= |s| then s[..n] else s
  }

  /** `s.substring(n)`: everything from index `n` on, or the empty string when
      `n` is past the end. */
  function SubstringFrom(s: string, n: nat): (r: string)
    ensures n <= |s| ==> s == s[..n] + r
    ensures |s| <= n ==> r == ""
  {
    if n <= |s| then s[n..] else ""
  }

  /** Comparing `s.substring(0, |p|)` with `p` is exactly a prefix test. */
  lemma SubstringToIsPrefixTest(s: string, p: string)
    ensures SubstringTo(s, |p|) == p <==> StartsWith(s, p)
  {
  }

  /** Dropping the first `|tag|` characters of `tag + rest` leaves `rest`,
      whatever the characters of `tag` are. */
  lemma SubstringFromAfterTag(tag: string, rest: string)
    ensures SubstringFrom(tag + rest, |tag|) == rest
  {
    assert (tag + rest)[|tag|..] == rest;
  }

  /** Joins pieces with one separator character between neighbours. */
  function Join(parts: seq<string>, sep: char): string
    requires |parts| >= 1
    decreases |parts|
  {
    if |parts| == 1 then parts[0] else parts[0] + [sep] + Join(parts[1..], sep)
  }

  /** `s.split(sep)` for a one-character separator: the separator-free pieces
      of `s` in order, one more piece than there are separators. */
  function Split(s: string, sep: char): (parts: seq<string>)
    ensures |parts| == multiset(s)[sep] + 1
    ensures forall i :: 0 <= i < |parts| ==> sep !in parts[i]
    decreases |s|
  {
    if |s| == 0 then [""]
    else
      var rest := Split(s[1..], sep);
      assert multiset(s) == multiset([s[0]]) + multiset(s[1..]) by {
        assert s == [s[0]] + s[1..];
      }
      if s[0] == sep then [""] + rest
      else [[s[0]] + rest[0]] + rest[1..]
  }

  /** Putting a character in front of the first piece puts it in front of the
      joined string. */
  lemma JoinExtendFirst(c: char, parts: seq<string>, sep: char)
    requires |parts| >= 1
    ensures Join([[c] + parts[0]] + parts[1..], sep) == [c] + Join(parts, sep)
  {
    var ext := [[c] + parts[0]] + parts[1..];
    assert ext[0] == [c] + parts[0];
    if |parts| > 1 {
      assert ext[1..] == parts[1..];
    }
  }

  /** Joining a leading piece in front of at least one more. */
  lemma JoinCons(x: string, rest: seq<string>, sep: char)
    requires |rest| >= 1
    ensures Join([x] + rest, sep) == x + [sep] + Join(rest, sep)
  {
    assert ([x] + rest)[1..] == rest;
  }

  /** Joining the pieces of a split gives back the original string. */
  lemma {:induction false} JoinSplit(s: string, sep: char)
    ensures Join(Split(s, sep), sep) == s
    decreases |s|
  {
    if |s| > 0 {
      var rest := Split(s[1..], sep);
      JoinSplit(s[1..], sep);
      if s[0] == sep {
        assert Split(s, sep) == [""] + rest;
        JoinCons("", rest, sep);
        assert [sep] + s[1..] == s;
      } else {
        assert Split(s, sep) == [[s[0]] + rest[0]] + rest[1..];
        JoinExtendFirst(s[0], rest, sep);
        assert [s[0]] + s[1..] == s;
      }
    }
  }

  /** A separator-free string is a single piece. */
  lemma SplitWithoutSeparator(a: string, sep: char)
    requires sep !in a
    ensures Split(a, sep) == [a]
  {
    assert multiset(a)[sep] == 0;
    JoinSplit(a, sep);
  }

  /** Splitting at the first separator peels off the leading piece. */
  lemma {:induction false} SplitAtFirst(a: string, b: string, sep: char)
    requires sep !in a
    ensures Split(a + [sep] + b, sep) == [a] + Split(b, sep)
    decreases |a|
  {
    var s := a + [sep] + b;
    if |a| == 0 {
      assert s == [sep] + b;
      assert s[1..] == b;
    } else {
      assert s[1..] == a[1..] + [sep] + b;
      SplitAtFirst(a[1..], b, sep);
      assert [s[0]] + a[1..] == a;
    }
  }

  /** `split` undoes `join` when no piece contains the separator. */
  lemma {:induction false} SplitJoin(parts: seq<string>, sep: char)
    requires |parts| >= 1
    requires forall i :: 0 <= i < |parts| ==> sep !in parts[i]
    ensures Split(Join(parts, sep), sep) == parts
    decreases |parts|
  {
    if |parts| == 1 {
      SplitWithoutSeparator(parts[0], sep);
    } else {
      SplitJoin(parts[1..], sep);
      SplitAtFirst(parts[0], Join(parts[1..], sep), sep);
      assert [parts[0]] + parts[1..] == parts;
    }
  }

  /** Three pieces joined. */
  lemma JoinThree(a: string, b: string, c: string, sep: char)
    ensures Join([a, b, c], sep) == a + [sep] + b + [sep] + c
  {
    var parts := [a, b, c];
    assert parts[1..] == [b, c];
    assert [b, c][1..] == [c];
    assert Join([c], sep) == c;
    assert Join([b, c], sep) == b + [sep] + c;
    calc {
      Join(parts, sep);
      a + [sep] + Join([b, c], sep);
      a + [sep] + (b + [sep] + c);
      a + [sep] + b + [sep] + c;
    }
  }
}

=== FILE: Page.dfy ===
/** The page as the crawler's in-page script sees it, and the lookup of the
    advertisement's bounding rectangle (lib/crawler.js:124-186). Coordinates
    are whole pixels. */
module Page {
  import opened Wrappers
  import opened JsStrings
  import opened Request
  import opened Faults
  import opened Placements

  /** A bounding client rectangle: `y` as top, `x` as left. */
  datatype Rect = Rect(top: int, left: int, width: int, height: int)

  /** An `img[data-cliquesnative]` element. */
  datatype Image = Image(complete: bool, naturalWidth: int, rect: Rect)

  /** An `iframe` element with its `src` attribute. */
  datatype Frame = Frame(src: string, rect: Rect)

  /** The results of the selector queries the script makes, each in document
      order: the native images, the first match of each of the three widget
      selectors, and the iframes. */
  datatype Dom = Dom(
    nativeImages: seq<Image>,
    widgetById: Option<Rect>,             // div#cliques-widget
    widgetByClass: Option<Rect>,          // div.cliques-widget
    widgetByDataAttribute: Option<Rect>,  // div[data-cliques-multi-pane-native]
    iframes: seq<Frame>)

  /** Which reading of the code to follow: the code as it stands; with only
      the in-page iframe selector repaired; or with both iframe-path defects
      listed under Findings in the README repaired. */
  datatype Revision = AsWritten | SelectorRepaired | Corrected

  /** The first candidate that is present, if any. */
  function FirstPresent<T>(candidates: seq<Option<T>>): (r: Option<T>)
    ensures r.None? <==> forall i :: 0 <= i < |candidates| ==> candidates[i].None?
    ensures r.Some? ==> exists i :: 0 <= i < |candidates| && candidates[i] == r &&
                                   forall j :: 0 <= j < i ==> candidates[j].None?
    decreases |candidates|
  {
    if |candidates| == 0 then None
    else if candidates[0].Some? then candidates[0]
    else
      var r := FirstPresent(candidates[1..]);
      assert forall i :: 1 <= i < |candidates| ==> candidates[i] == candidates[1..][i - 1];
      r
  }

  /** The multi-pane widget lookup (lib/crawler.js:138-150): `div#cliques-widget`,
      then `div.cliques-widget`, then `div[data-cliques-multi-pane-native]`. */
  /** The multi-pane widget: by id, else by class, else by data attribute. */
  function Widget(dom: Dom): (w: Option<Rect>)
    ensures w.None? <==> dom.widgetById.None? && dom.widgetByClass.None? && dom.widgetByDataAttribute.None?
    ensures dom.widgetById.Some? ==> w == dom.widgetById
    ensures dom.widgetById.None? && dom.widgetByClass.Some? ==> w == dom.widgetByClass
    ensures dom.widgetById.None? && dom.widgetByClass.None? ==> w == dom.widgetByDataAttribute
  {
    var widget := dom.widgetById;
    var widget := if widget.None? then dom.widgetByClass else widget;
    if widget.None? then dom.widgetByDataAttribute else widget
  }

  /** The fallback chain picks the first selector that matches. */
  lemma WidgetIsFirstPresent(dom: Dom)
    ensures Widget(dom) == FirstPresent([dom.widgetById, dom.widgetByClass, dom.widgetByDataAttribute])
    ensures Widget(dom).None? <==>
              dom.widgetById.None? && dom.widgetByClass.None? && dom.widgetByDataAttribute.None?
  {
    var candidates := [dom.widgetById, dom.widgetByClass, dom.widgetByDataAttribute];
    var last := [dom.widgetByDataAttribute];
    assert last[1..] == [];
    assert FirstPresent(last) == dom.widgetByDataAttribute;
    var lastTwo := [dom.widgetByClass, dom.widgetByDataAttribute];
    assert lastTwo[1..] == last;
    assert FirstPresent(lastTwo) == if dom.widgetByClass.Some? then dom.widgetByClass else FirstPresent(last);
    assert candidates[1..] == lastTwo;
  }

  /** The two attribute fragments `iframe[src*="crgid='…'"][src*="pid='…'"]`
      requires of the ad's iframe. */
  predicate FrameMatches(frame: Frame, crgId: string, pid: string)
  {
    Contains(frame.src, "crgid='" + crgId + "'") && Contains(frame.src, "pid='" + pid + "'")
  }

  /** `document.querySelector` for the ad's iframe, with the ids passed in. */
  function MatchingFrame(frames: seq<Frame>, crgId: string, pid: string): Option<Rect>
  {
    FirstPresent(seq(|frames|, i requires 0 <= i < |frames| =>
                   if FrameMatches(frames[i], crgId, pid) then Some(frames[i].rect) else None))
  }

  /** The rectangle the in-page script returns, or the exception it raises.
      As written, the iframe branch builds its selector from `captureScreenInfo`,
      a name that exists only in the crawler process, not in the page, so the
      script throws a ReferenceError there. */
  function LocateRect(kind: Kind, dom: Dom, info: CaptureInfo, revision: Revision)
    : (r: Result<Option<Rect>, Cause>)
    ensures kind == Native ==>
              r.Success? && (r.value.None? <==> |dom.nativeImages| == 0) &&
              (r.value.Some? ==> r.value.value == dom.nativeImages[0].rect)
    ensures kind.MultiPaneNative? ==>
              r == Success(FirstPresent([dom.widgetById, dom.widgetByClass, dom.widgetByDataAttribute]))
    ensures kind == Iframe && revision == AsWritten ==> r == Failure(ReferenceError)
    ensures kind == Iframe && revision != AsWritten ==> r == Success(MatchingFrame(dom.iframes, info.crgId, info.pid))
    ensures r.Failure? ==> kind == Iframe && revision == AsWritten
  {
    match kind
    case Native =>
      if |dom.nativeImages| == 0 then Success(None) else Success(Some(dom.nativeImages[0].rect))
    case MultiPaneNative(_) =>
      WidgetIsFirstPresent(dom);
      Success(Widget(dom))
    case Iframe =>
      if revision == AsWritten then Failure(ReferenceError)
      else Success(MatchingFrame(dom.iframes, info.crgId, info.pid))
  }

  /** The corrected iframe lookup finds the first iframe, in document order,
      whose `src` names both the creative group and the placement, and finds
      nothing only when no iframe does. */
  lemma CorrectedFrameIsFirstMatch(dom: Dom, info: CaptureInfo)
    ensures var r := LocateRect(Iframe, dom, info, Corrected);
            && (r.value.None? <==> forall i :: 0 <= i < |dom.iframes| ==> !FrameMatches(dom.iframes[i], info.crgId, info.pid))
            && (r.value.Some? ==>
                  exists i :: 0 <= i < |dom.iframes| && FrameMatches(dom.iframes[i], info.crgId, info.pid) &&
                              r.value.value == dom.iframes[i].rect &&
                              forall j :: 0 <= j < i ==> !FrameMatches(dom.iframes[j], info.crgId, info.pid))
  {
    var frames := dom.iframes;
    var candidates := seq(|frames|, i requires 0 <= i < |frames| =>
                            if FrameMatches(frames[i], info.crgId, info.pid) then Some(frames[i].rect) else None);
    assert forall i :: 0 <= i < |frames| ==> (candidates[i].None? <==> !FrameMatches(frames[i], info.crgId, info.pid));
  }

  /** The text of the tagged error raised when no rectangle is found; it
      depends on the placement kind (lib/crawler.js:165-186). */
  function NotFoundMessage(kind: Kind, info: CaptureInfo): (m: string)
    ensures |info.pid| + 1 <= |m| && m[|m| - |info.pid| - 1..] == info.pid + "."
  {
    match kind
    case Native =>
      "Unable to find native ad with crgId: " + info.crgId + " and pid: " + info.pid + "."
    case MultiPaneNative(_) =>
      "Unable to find multi-pane native ad with pid: " + info.pid + "."
    case Iframe =>
      "Unable to find cliques iframe tag with crgId: " + info.crgId + " and pid: " + info.pid + "."
  }

  /** The native and iframe messages name the creative group as well. */
  lemma NotFoundNamesCreativeGroup(kind: Kind, info: CaptureInfo)
    requires !kind.MultiPaneNative?
    ensures Contains(NotFoundMessage(kind, info), info.crgId)
  {
    var tail := " and pid: " + info.pid + ".";
    var head := if kind.Native? then "Unable to find native ad with crgId: "
                else "Unable to find cliques iframe tag with crgId: ";
    assert NotFoundMessage(kind, info) == head + info.crgId + tail;
    ContainsInfix(head, info.crgId, tail);
  }

  /** The three not-found messages never coincide, whatever the ids: the log
      always tells which kind of ad was missing. */
  lemma NotFoundMessagesDiffer(k1: Kind, k2: Kind, info1: CaptureInfo, info2: CaptureInfo)
    requires k1.Native? != k2.Native? || k1.Iframe? != k2.Iframe?
    ensures NotFoundMessage(k1, info1) != NotFoundMessage(k2, info2)
  {
    var m1 := NotFoundMessage(k1, info1);
    var m2 := NotFoundMessage(k2, info2);
    assert m1[15] == (match k1 case Native => 'n' case MultiPaneNative(_) => 'm' case Iframe => 'c');
    assert m2[15] == (match k2 case Native => 'n' case MultiPaneNative(_) => 'm' case Iframe => 'c');
  }
}

=== FILE: Placements.dfy ===
/** The creative-group and placement records looked up for a request and the
    placement kind derived from them (lib/crawler.js:63-110). */
module Placements {
  import opened Wrappers
  import opened Request
  import opened Faults

  datatype Campaign = Campaign(id: string, name: string)

  /** The parents of a creative group that end up in the saved metadata. */
  datatype CreativeGroup = CreativeGroup(parentAdvertiser: Option<string>, parentCampaign: Option<Campaign>)

  /** What reading `multiPaneNative.count.desktop` finds: the settings object
      is missing, its `count` object is missing, or the desktop count (which
      may itself be undefined). */
  datatype PaneSettings = NoPaneSettings | NoCountObject | PaneCounts(desktop: Option<int>)

  datatype Placement = Placement(
    placementType: string,
    multiPaneNative: PaneSettings,
    parentPublisher: Option<string>,
    parentPage: Option<string>,
    parentSite: Option<string>)

  /** `placementType` in the source: `native`, `multiPaneNative` with its
      expected image count, or undefined, which selects the iframe path. */
  datatype Kind = Native | MultiPaneNative(expectedCount: Option<int>) | Iframe

  const NativeType: string := "native"
  const MultiPaneNativeType: string := "multiPaneNative"

  /** The kind a placement record selects (lib/crawler.js:83-88). Reading the
      count of a `multiPaneNative` placement without settings or without a
      `count` object is a TypeError. */
  function PlacementKind(p: Placement): (r: Result<Kind, Cause>)
    ensures r == Success(Native) <==> p.placementType == NativeType
    ensures r.Success? && r.value.MultiPaneNative? <==>
              p.placementType == MultiPaneNativeType && p.multiPaneNative.PaneCounts?
    ensures r.Success? && r.value.MultiPaneNative? ==> r.value.expectedCount == p.multiPaneNative.desktop
    ensures r == Success(Iframe) <==> p.placementType != NativeType && p.placementType != MultiPaneNativeType
    ensures r.Failure? ==> r.error == TypeError
  {
    if p.placementType == NativeType then Success(Native)
    else if p.placementType == MultiPaneNativeType then
      match p.multiPaneNative
      case PaneCounts(desktop) => Success(MultiPaneNative(desktop))
      case _ => Failure(TypeError)
    else Success(Iframe)
  }

  /** The expected image count the readiness wait receives: only a
      multi-pane placement has one. */
  function ExpectedCount(kind: Kind): (count: Option<int>)
    ensures kind.MultiPaneNative? ==> count == kind.expectedCount
    ensures !kind.MultiPaneNative? ==> count.None?
  {
    if kind.MultiPaneNative? then kind.expectedCount else None
  }

  function CreativeGroupMissing(crgId: string): string
  {
    "Error finding creative group with _id: " + crgId
  }

  function PlacementMissing(pid: string): string
  {
    "Error finding placement with _id: " + pid
  }

  /** The checks after both lookups (lib/crawler.js:68-88): a missing creative
      group is reported before a missing placement, both as tagged errors;
      otherwise the placement's kind is derived. */
  function Resolve(creativeGroup: Option<CreativeGroup>, placement: Option<Placement>, info: CaptureInfo)
    : (r: Result<(CreativeGroup, Placement, Kind), Thrown>)
    ensures creativeGroup.None? ==> r == Failure(Tagged(ErrorLevel, CreativeGroupMissing(info.crgId)))
    ensures creativeGroup.Some? && placement.None? ==>
              r == Failure(Tagged(ErrorLevel, PlacementMissing(info.pid)))
    ensures r.Success? <==> creativeGroup.Some? && placement.Some? && PlacementKind(placement.value).Success?
    ensures r.Success? ==>
              && creativeGroup == Some(r.value.0)
              && placement == Some(r.value.1)
              && PlacementKind(r.value.1) == Success(r.value.2)
    ensures r.Failure? && creativeGroup.Some? && placement.Some? ==> r.error == Untagged(TypeError)
  {
    if creativeGroup.None? then Failure(Tagged(ErrorLevel, CreativeGroupMissing(info.crgId)))
    else if placement.None? then Failure(Tagged(ErrorLevel, PlacementMissing(info.pid)))
    else match PlacementKind(placement.value)
      case Failure(cause) => Failure(Untagged(cause))
      case Success(kind) => Success((creativeGroup.value, placement.value, kind))
  }
}

=== FILE: Readiness.dfy ===
/** The "all ad images loaded" predicate handed to `page.waitFor` and the
    wait itself (lib/crawler.js:201-221). */
module Readiness {
  import opened Wrappers
  import opened Faults
  import opened Page

  /** What one evaluation of the predicate does: returns true, returns false,
      or throws (reading `complete` of `null`). */
  datatype Verdict = Ready | NotReady | Threw

  /** With an expected count above 1 every `img[data-cliquesnative]` is
      collected; otherwise (including an undefined count) only the first match,
      which is `null` when there is none. */
  predicate CollectsAll(expectedCount: Option<int>)
  {
    expectedCount.Some? && expectedCount.value > 1
  }

  predicate Loaded(image: Image)
  {
    image.complete && image.naturalWidth != 0
  }

  /** Every collected entry is a loaded image. */
  predicate AllLoaded(collected: seq<Option<Image>>)
  {
    forall i :: 0 <= i < |collected| ==> collected[i].Some? && Loaded(collected[i].value)
  }

  /** The `cliquesImages` array the predicate builds (lib/crawler.js:202-208). */
  function CollectImages(expectedCount: Option<int>, images: seq<Image>): (collected: seq<Option<Image>>)
    ensures CollectsAll(expectedCount) ==>
              |collected| == |images| && forall i :: 0 <= i < |images| ==> collected[i] == Some(images[i])
    ensures !CollectsAll(expectedCount) ==>
              collected == [if |images| == 0 then None else Some(images[0])]
  {
    if CollectsAll(expectedCount) then seq(|images|, i requires 0 <= i < |images| => Some(images[i]))
    else if |images| == 0 then [None]
    else [Some(images[0])]
  }

  /** The `for` loop over the collected entries (lib/crawler.js:212-220): it
      stops at the first entry that is `null` (throws), not complete or of
      zero natural width (false), and is true when it runs off the end. */
  function ScanImages(collected: seq<Option<Image>>): (v: Verdict)
    ensures v == Ready <==> AllLoaded(collected)
    ensures v == Threw <==>
              exists i :: 0 <= i < |collected| && collected[i].None? && AllLoaded(collected[..i])
    decreases |collected|
  {
    if |collected| == 0 then Ready
    else if collected[0].None? then
      assert AllLoaded(collected[..0]);
      Threw
    else if !collected[0].value.complete then NotReady
    else if collected[0].value.naturalWidth == 0 then NotReady
    else
      var rest := collected[1..];
      assert forall i :: 0 <= i < |rest| ==> rest[..i] == collected[1..i + 1];
      assert forall i :: 1 <= i <= |collected| ==> collected[..i] == [collected[0]] + rest[..i - 1];
      ScanImages(rest)
  }

  /** One evaluation of the predicate on the page's current images: an empty
      collection is false before the loop runs. */
  function Evaluate(expectedCount: Option<int>, images: seq<Image>): (v: Verdict)
    ensures v == Ready ==> |images| > 0
    ensures v == Threw ==> !CollectsAll(expectedCount)
  {
    var collected := CollectImages(expectedCount, images);
    if |collected| == 0 then NotReady else ScanImages(collected)
  }

  /** The predicate's truth conditions: with a count above 1 it holds iff
      there is at least one image and every image is loaded; otherwise iff
      the first image exists and is loaded; and it throws exactly when only
      the first match is wanted and there is none. */
  lemma {:induction false} EvaluateTruthTable(expectedCount: Option<int>, images: seq<Image>)
    ensures Evaluate(expectedCount, images) == Ready <==>
              |images| > 0 &&
              if CollectsAll(expectedCount) then forall i :: 0 <= i < |images| ==> Loaded(images[i])
              else Loaded(images[0])
    ensures Evaluate(expectedCount, images) == Threw <==> !CollectsAll(expectedCount) && |images| == 0
  {
    var collected := CollectImages(expectedCount, images);
    if CollectsAll(expectedCount) {
      if |images| > 0 && forall i :: 0 <= i < |images| ==> Loaded(images[i]) {
        assert AllLoaded(collected);
      }
    } else if |images| == 0 {
      assert collected[..0] == [];
    }
  }

  /** The expected count only chooses between the two queries: any two counts
      above 1 give the same verdict on every page, so the number of images
      found is never compared with the count. */
  lemma CountValueIgnored(c1: Option<int>, c2: Option<int>, images: seq<Image>)
    requires CollectsAll(c1) && CollectsAll(c2)
    ensures Evaluate(c1, images) == Evaluate(c2, images)
  {
  }

  /** `waitFor` gives up after this many milliseconds. */
  const WaitTimeoutMillis: int := 60_000

  /** The page's native images as the predicate sees them at one evaluation,
      `elapsedMillis` after the wait began. */
  datatype Poll = Poll(elapsedMillis: int, images: seq<Image>)

  datatype WaitResult = Satisfied | WaitFailed(cause: Cause)

  /** The polls before index `i` all came inside the budget and saw false. */
  predicate PendingBefore(expectedCount: Option<int>, polls: seq<Poll>, i: int)
    requires 0 <= i <= |polls|
  {
    forall j :: 0 <= j < i ==>
      polls[j].elapsedMillis < WaitTimeoutMillis && Evaluate(expectedCount, polls[j].images) == NotReady
  }

  /** `page.waitFor(predicate, {timeout: 60000}, count)`: the predicate is
      evaluated on successive page states (`polls`, in time order) until it is
      true, throws, or the budget is spent. Only a throw from the first
      evaluation rejects the wait with the predicate's TypeError; running out
      of observations counts as the timeout. */
  function WaitForImages(expectedCount: Option<int>, polls: seq<Poll>): (w: WaitResult)
    ensures w.WaitFailed? ==> w.cause == TypeError || w.cause == TimeoutError
    ensures w == WaitFailed(TypeError) <==>
              |polls| > 0 && polls[0].elapsedMillis < WaitTimeoutMillis &&
              Evaluate(expectedCount, polls[0].images) == Threw
  {
    if |polls| == 0 || polls[0].elapsedMillis >= WaitTimeoutMillis then WaitFailed(TimeoutError)
    else
      match Evaluate(expectedCount, polls[0].images)
      case Ready => Satisfied
      case Threw => WaitFailed(TypeError)
      case NotReady => KeepPolling(expectedCount, polls[1..])
  }

  /** The later evaluations, each run from an animation-frame callback. A
      throw there escapes the callback and schedules no further evaluation,
      so the wait ends only when its budget runs out. */
  function KeepPolling(expectedCount: Option<int>, polls: seq<Poll>): (w: WaitResult)
    ensures w == Satisfied || w == WaitFailed(TimeoutError)
    decreases |polls|
  {
    if |polls| == 0 || polls[0].elapsedMillis >= WaitTimeoutMillis then WaitFailed(TimeoutError)
    else
      match Evaluate(expectedCount, polls[0].images)
      case Ready => Satisfied
      case Threw => WaitFailed(TimeoutError)
      case NotReady => KeepPolling(expectedCount, polls[1..])
  }

  /** The `i`-th evaluation comes inside the budget, after only false ones,
      and gives `v`. */
  predicate DecidedAt(expectedCount: Option<int>, polls: seq<Poll>, i: int, v: Verdict)
    requires 0 <= i < |polls|
  {
    PendingBefore(expectedCount, polls, i) && polls[i].elapsedMillis < WaitTimeoutMillis &&
    Evaluate(expectedCount, polls[i].images) == v
  }

  /** Deciding at `i + 1` of the polls is deciding at `i` of the polls after
      the first, when the first was inside the budget and false. */
  lemma DecidedAtShift(expectedCount: Option<int>, polls: seq<Poll>, v: Verdict)
    requires |polls| > 0 && polls[0].elapsedMillis < WaitTimeoutMillis
    requires Evaluate(expectedCount, polls[0].images) == NotReady
    ensures forall i :: 0 <= i < |polls| - 1 ==>
              (DecidedAt(expectedCount, polls, i + 1, v) <==> DecidedAt(expectedCount, polls[1..], i, v))
  {
    var rest := polls[1..];
    forall i | 0 <= i < |rest|
      ensures PendingBefore(expectedCount, polls, i + 1) <==> PendingBefore(expectedCount, rest, i)
    {
      assert forall j :: 0 <= j < i ==> rest[j] == polls[j + 1];
    }
  }

  /** The polling after the first evaluation succeeds exactly when some
      evaluation inside the budget is true and every earlier one was false. */
  lemma {:induction false} KeepPollingOutcome(expectedCount: Option<int>, polls: seq<Poll>)
    ensures KeepPolling(expectedCount, polls) == Satisfied
            <==> exists i :: 0 <= i < |polls| && DecidedAt(expectedCount, polls, i, Ready)
    decreases |polls|
  {
    if |polls| == 0 || polls[0].elapsedMillis >= WaitTimeoutMillis {
      assert forall i :: 0 <= i < |polls| ==> !DecidedAt(expectedCount, polls, i, Ready);
    } else if Evaluate(expectedCount, polls[0].images) == NotReady {
      KeepPollingOutcome(expectedCount, polls[1..]);
      DecidedAtShift(expectedCount, polls, Ready);
      assert !DecidedAt(expectedCount, polls, 0, Ready);
      if exists i :: 0 <= i < |polls| && DecidedAt(expectedCount, polls, i, Ready) {
        var i :| 0 <= i < |polls| && DecidedAt(expectedCount, polls, i, Ready);
        assert DecidedAt(expectedCount, polls[1..], i - 1, Ready);
      }
      if exists i :: 0 <= i < |polls| - 1 && DecidedAt(expectedCount, polls[1..], i, Ready) {
        var i :| 0 <= i < |polls| - 1 && DecidedAt(expectedCount, polls[1..], i, Ready);
        assert DecidedAt(expectedCount, polls, i + 1, Ready);
      }
    } else {
      assert PendingBefore(expectedCount, polls, 0);
      if Evaluate(expectedCount, polls[0].images) == Ready {
        assert DecidedAt(expectedCount, polls, 0, Ready);
      } else {
        assert forall i :: 0 < i < |polls| ==> !PendingBefore(expectedCount, polls, i);
      }
    }
  }

  /** The wait succeeds exactly when some evaluation inside the 60 s budget is
      true and every earlier one was false; any other end is a failure, the
      TypeError only for a throwing first evaluation. */
  lemma WaitOutcome(expectedCount: Option<int>, polls: seq<Poll>)
    ensures WaitForImages(expectedCount, polls) == Satisfied
            <==> exists i :: 0 <= i < |polls| && DecidedAt(expectedCount, polls, i, Ready)
  {
    // The first evaluation differs from the later ones only in how a throw
    // ends the wait, which is a failure either way.
    assert WaitForImages(expectedCount, polls) == Satisfied <==> KeepPolling(expectedCount, polls) == Satisfied;
    KeepPollingOutcome(expectedCount, polls);
  }

  /** As written, a page with no `img[data-cliquesnative]` makes the very
      first evaluation throw whenever the expected count is not above 1, so
      the wait fails however long the page is given. */
  lemma WaitThrowsWithoutNativeImage(expectedCount: Option<int>, polls: seq<Poll>)
    requires !CollectsAll(expectedCount)
    requires |polls| > 0 && polls[0].elapsedMillis < WaitTimeoutMillis && polls[0].images == []
    ensures WaitForImages(expectedCount, polls) == WaitFailed(TypeError)
  {
    EvaluateTruthTable(expectedCount, polls[0].images);
    assert Evaluate(expectedCount, polls[0].images) == Threw;
  }
}

=== FILE: RedisMessage.dfy ===
/** The string a deferred request is stored as in the Redis list
    (index.js:107) and `parseScreenshotMessageFromRedis` (index.js:47-61). */
module RedisMessage {
  import opened Wrappers
  import opened JsStrings
  import opened Request

  const Separator: char := ','
  const UrlTag: string := "websiteUrl:"
  const PidTag: string := "pid:"
  /** The tag the message is written with ... */
  const CrgIdTag: string := "crgId:"
  /** ... and the differently cased tag whose length the parser skips. */
  const CrgIdParseTag: string := "crgid:"

  /** `websiteUrl:${websiteUrl},pid:${pid},crgId:${crgId}`. */
  function Format(info: CaptureInfo): (s: string)
    ensures StartsWith(s, UrlTag + info.websiteUrl)
  {
    (UrlTag + info.websiteUrl) + [Separator] + (PidTag + info.pid) + [Separator] + (CrgIdTag + info.crgId)
  }

  /** Splits on `,` and keeps fields 0, 1 and 2 with their first 11, 4 and 6
      characters dropped; the tag text itself is never checked. With fewer
      than three fields `arr[1]` or `arr[2]` is undefined and reading its
      `substring` is a TypeError, modelled as no result. */
  function Parse(messageString: string): (r: Option<CaptureInfo>)
    ensures r.None? <==> multiset(messageString)[Separator] < 2
  {
    var arr := Split(messageString, Separator);
    if |arr| < 3 then None
    else Some(CaptureInfo(SubstringFrom(arr[0], |UrlTag|),
                          SubstringFrom(arr[1], |PidTag|),
                          SubstringFrom(arr[2], |CrgIdParseTag|)))
  }

  predicate CommaFree(info: CaptureInfo)
  {
    Separator !in info.websiteUrl && Separator !in info.pid && Separator !in info.crgId
  }

  /** Reading back joined comma-free fields drops the tag lengths from the
      first three and ignores any further ones. */
  lemma ParseJoined(parts: seq<string>)
    requires |parts| >= 3
    requires forall i :: 0 <= i < |parts| ==> Separator !in parts[i]
    ensures Parse(Join(parts, Separator)) == Some(CaptureInfo(SubstringFrom(parts[0], |UrlTag|),
                                                             SubstringFrom(parts[1], |PidTag|),
                                                             SubstringFrom(parts[2], |CrgIdParseTag|)))
  {
    SplitJoin(parts, Separator);
  }

  /** Three comma-free fields are read back with their tag lengths dropped. */
  lemma ParseThreeFields(f0: string, f1: string, f2: string)
    requires Separator !in f0 && Separator !in f1 && Separator !in f2
    ensures Parse(f0 + [Separator] + f1 + [Separator] + f2)
         == Some(CaptureInfo(SubstringFrom(f0, |UrlTag|), SubstringFrom(f1, |PidTag|),
                             SubstringFrom(f2, |CrgIdParseTag|)))
  {
    JoinThree(f0, f1, f2, Separator);
    assert forall i :: 0 <= i < 3 ==> Separator !in [f0, f1, f2][i];
    ParseJoined([f0, f1, f2]);
  }

  /** Any three comma-free tags of the right lengths are skipped, whatever
      their text: only the field positions and tag lengths matter. */
  lemma ParseIgnoresTagText(t0: string, t1: string, t2: string, info: CaptureInfo)
    requires |t0| == |UrlTag| && |t1| == |PidTag| && |t2| == |CrgIdParseTag|
    requires Separator !in t0 && Separator !in t1 && Separator !in t2
    requires CommaFree(info)
    ensures Parse((t0 + info.websiteUrl) + [Separator] + (t1 + info.pid) + [Separator] + (t2 + info.crgId)) == Some(info)
  {
    var f0, f1, f2 := t0 + info.websiteUrl, t1 + info.pid, t2 + info.crgId;
    assert Separator !in f0 && Separator !in f1 && Separator !in f2;
    ParseThreeFields(f0, f1, f2);
    SubstringFromAfterTag(t0, info.websiteUrl);
    SubstringFromAfterTag(t1, info.pid);
    SubstringFromAfterTag(t2, info.crgId);
  }

  /** Round trip: a request whose three fields contain no comma is read back
      from the list exactly as it was written, because `crgid:` and `crgId:`
      have the same length. */
  lemma ParseFormat(info: CaptureInfo)
    requires CommaFree(info)
    ensures Parse(Format(info)) == Some(info)
  {
    assert |CrgIdTag| == |CrgIdParseTag|;
    ParseIgnoresTagText(UrlTag, PidTag, CrgIdTag, info);
  }

  /** Every stored message is non-empty and has at least three fields, so
      reading it back never throws, commas in the fields or not. */
  lemma FormatAlwaysParses(info: CaptureInfo)
    ensures Format(info) != [] && Parse(Format(info)).Some?
  {
    var u, p, c := info.websiteUrl, info.pid, info.crgId;
    assert multiset(Format(info))[Separator]
        == multiset(UrlTag + u)[Separator] + 1 + multiset(PidTag + p)[Separator] + 1 + multiset(CrgIdTag + c)[Separator];
  }

  /** The URL field read back is whatever precedes the first comma. */
  lemma ParseFirstField(a: string, b: string)
    requires Separator !in a && Separator in b
    ensures Parse(a + [Separator] + b).Some?
    ensures Parse(a + [Separator] + b).value.websiteUrl == SubstringFrom(a, |UrlTag|)
  {
    SplitAtFirst(a, b, Separator);
    assert multiset(b)[Separator] >= 1;
  }

  lemma TagsAreCommaFree()
    ensures Separator !in UrlTag && Separator !in PidTag && Separator !in CrgIdTag
  {
  }

  /** The stored message of a URL `u1,u2`, cut at the URL's first comma. */
  lemma FormatAtUrlComma(u1: string, u2: string, pid: string, crgId: string)
    ensures Format(CaptureInfo(u1 + [Separator] + u2, pid, crgId))
         == (UrlTag + u1) + [Separator] + (u2 + [Separator] + (PidTag + pid) + [Separator] + (CrgIdTag + crgId))
  {
  }

  /** The format has no escaping: when the URL holds a comma, the URL read
      back stops at its first comma, so the round trip fails. */
  lemma CommaInUrlBreaksRoundTrip(u1: string, u2: string, pid: string, crgId: string)
    requires Separator !in u1
    ensures var info := CaptureInfo(u1 + [Separator] + u2, pid, crgId);
            && Parse(Format(info)).Some?
            && Parse(Format(info)).value.websiteUrl == u1
            && Parse(Format(info)) != Some(info)
  {
    var info := CaptureInfo(u1 + [Separator] + u2, pid, crgId);
    var a := UrlTag + u1;
    var b := u2 + [Separator] + (PidTag + pid) + [Separator] + (CrgIdTag + crgId);
    FormatAtUrlComma(u1, u2, pid, crgId);
    TagsAreCommaFree();
    assert b[|u2|] == Separator;
    ParseFirstField(a, b);
    SubstringFromAfterTag(UrlTag, u1);
    assert |u1| < |info.websiteUrl|;
  }
}

=== FILE: Request.dfy ===
/** The request a capture works on: the three attributes of an inbound
    message (index.js:105-107) and of a message read back from the Redis
    list (index.js:54-61). */
module Request {

  /** `captureScreenInfo`: target page, placement id and creative group id. */
  datatype CaptureInfo = CaptureInfo(websiteUrl: string, pid: string, crgId: string)
}

=== FILE: Urls.dfy ===
/** Protocol detection and URL normalisation (lib/crawler.js:19-26, 112-114). */
module Urls {
  import opened JsStrings

  const HttpPrefix: string := "http://"
  const HttpsPrefix: string := "https://"

  /** The reference notion: the URL already names its scheme. */
  predicate HasProtocol(url: string)
  {
    StartsWith(url, HttpPrefix) || StartsWith(url, HttpsPrefix)
  }

  /** `protocolPrefixExistsInWebsiteUrl`: compares the first 7 and then the
      first 8 characters (clamped by `substring`) with the two prefixes. */
  function ProtocolPrefixExists(websiteUrl: string): (hasPrefix: bool)
    ensures hasPrefix <==> HasProtocol(websiteUrl)
  {
    if SubstringTo(websiteUrl, |HttpPrefix|) != HttpPrefix then
      if SubstringTo(websiteUrl, |HttpsPrefix|) != HttpsPrefix then
        false
      else
        true
    else
      true
  }

  /** The URL handed to the browser: `http://` is prepended exactly when no
      protocol prefix is present. The original URL is always kept as a suffix. */
  function Normalize(websiteUrl: string): (r: string)
    ensures HasProtocol(r)
    ensures HasProtocol(websiteUrl) ==> r == websiteUrl
    ensures !HasProtocol(websiteUrl) ==> r == HttpPrefix + websiteUrl
    ensures |websiteUrl| <= |r| && r[|r| - |websiteUrl|..] == websiteUrl
  {
    if !ProtocolPrefixExists(websiteUrl) then
      var r := HttpPrefix + websiteUrl;
      assert r[..|HttpPrefix|] == HttpPrefix;
      r
    else websiteUrl
  }

  /** Normalising twice is normalising once. */
  lemma NormalizeIdempotent(websiteUrl: string)
    ensures Normalize(Normalize(websiteUrl)) == Normalize(websiteUrl)
  {
  }

  /** A URL is left alone exactly when it already has a protocol prefix. */
  lemma NormalizeFixpoints(websiteUrl: string)
    ensures Normalize(websiteUrl) == websiteUrl <==> HasProtocol(websiteUrl)
  {
    if !HasProtocol(websiteUrl) {
      assert |Normalize(websiteUrl)| == |HttpPrefix| + |websiteUrl|;
    }
  }
}

=== FILE: Wrappers.dfy ===
/** Optional values and results with an error, used wherever the source has
    `undefined`/`null` or throws. */
module Wrappers {

  /** A value that may be absent (`undefined` or `null` in the source). */
  datatype Option<+T> = None | Some(value: T)

  /** A computation that either succeeds with a value or fails with an error. */
  datatype Result<+T, +E> = Success(value: T) | Failure(error: E)
}
